=== FILE: README.md ===
# Forum client core, modelled in Dafny

This project models the client-side core of a discussion-forum web app
(a React + Redux front end for a forum REST API). It covers these parts:

- **The API client** (`api.ts`):
  - a time-stamped in-memory cache with lazy expiry and `^`-anchored prefix invalidation;
  - one abort controller per URL, with cache-first reads;
  - an authorised fetch that refuses to run without a token;
  - unwrapping of the server's `{status, message, data}` envelope;
  - the typed endpoints: optimistic vote edits, then invalidation after success.
- **The Redux reducers**:
  - the thread list and the thread detail, whose votes toggle;
  - the simple "last write wins" slices: auth user, preload flag, leaderboards and users.
- **The component logic behind the pages**:
  - vote-button decisions and counts;
  - the two password-strength meters and the register error classifier;
  - login, thread and comment form validation, the comment counter and emoji insertion;
  - the category badge colours and text truncation;
  - the home page's category list, owner join and filter;
  - navbar highlighting, active-path and keyboard shortcuts;
  - sidebar initials;
  - the persisted theme and locale settings.

Modules:

| module | contents |
|---|---|
| `Wrappers` | `Option` and `Result` |
| `JsText` | the JavaScript string operations the code relies on: `trim`, ASCII `toLowerCase`/`toUpperCase`, `indexOf`, `includes`, `startsWith`, `substring`, `slice` |
| `Entities` | users, threads, thread details, comments and vote lists |
| `VoteSets` | the vote rules on `(upVotesBy, downVotesBy)` pairs |
| `CacheStore` | `CacheManager` |
| `RequestCoordinator` | `_fetchWithAuth` and `_fetchWithAbort` |
| `DomainClient` | the endpoints |
| `ThreadsReducer`, `ThreadDetailReducer`, `StoreReducers` | the reducers |
| one module per component or page | the component and page logic |

Time is an explicit parameter `now`, in milliseconds, standing in for `Date.now()`. A request's response carries the time it arrived.

Two behaviours of the code that the model keeps as they are:

- **Cache expiry.** An entry is still live at exactly `timestamp + duration`; it expires only when `now > timestamp + duration` (`src/services/api.ts:28`).
- **Invalidation after a vote.** It happens only when the request succeeds. A failed request throws before the `invalidate` calls are reached (`src/services/api.ts:266-278`).

## Model

| member | source | states |
|---|---|---|
| CacheStore.Empty | src/services/api.ts:19-22 | a new cache holds no entries and has the default five-minute lifetime |
| CacheStore.Get | src/services/api.ts:24-35 | a value is returned iff the key holds an entry with `now <= timestamp + duration`, and it is that entry's data; an expired entry is deleted on read; every other key is untouched |
| CacheStore.Set | src/services/api.ts:37-39 | the key then holds the data stamped with `now`; every other key keeps its entry |
| CacheStore.Invalidate | src/services/api.ts:41-47 | exactly the keys starting with the prefix are removed; survivors keep their entries |
| CacheStore.InvalidateByScan | src/services/api.ts:41-47 | the key-by-key deletion loop leaves the same cache as the prefix rule |
| CacheStore.Clear | src/services/api.ts:49-51 | no entries remain and the lifetime is kept |
| CacheStore.SetThenGet | src/services/api.ts:24-39 | reading a key within the lifetime of a write returns the written data |
| CacheStore.GetAfterExpiry | src/services/api.ts:28-32 | reading after the lifetime misses and deletes the entry |
| CacheStore.GetKeepsOtherKeys | src/services/api.ts:24-35 | a read changes no other key's entry |
| CacheStore.GetAfterClear | src/services/api.ts:49-51 | after clearing, every read misses |
| CacheStore.InvalidatePrefixOverlap | src/services/api.ts:41-47 | invalidating `thread-1` also drops `thread-10`, since the pattern is an unterminated prefix |
| CacheStore.InvalidateKeyFamilies | src/services/api.ts:277-278 | with keys `thread-1`, `thread-2` and `threads`, the prefix `thread-` removes exactly the two per-thread keys and `threads` removes exactly the list key |
| RequestCoordinator.FetchWithAuth | src/services/api.ts:68-84 | without a non-empty token the request fails with the authentication error and nothing is sent; with one, the server's response is passed on |
| RequestCoordinator.Unwrap | src/services/api.ts:106-114 | succeeds iff the status is `success` and data is present, returning that data; a non-`success` status fails with the server's message, missing data with "No data found", a transport failure with its reason |
| RequestCoordinator.FetchWithAbort | src/services/api.ts:86-124 | an earlier controller for the URL is aborted iff one is registered, and the URL is unregistered afterwards. A live cache entry short-circuits the request. Otherwise errors carry the server's message, and the data is returned and stored under the key at arrival time. No other key changes |
| RequestCoordinator.AbortAllRequests | src/services/api.ts:484-487 | every registered controller is aborted and the registry is emptied |
| RequestCoordinator.SequentialCallsLeaveNoController | src/services/api.ts:91-123 | a call made while no controller is registered aborts nothing and leaves no controller behind |
| RequestCoordinator.CacheHitNeedsNoToken | src/services/api.ts:99-102 | a live cached value is returned even when no token is stored |
| RequestCoordinator.FailureSurfacesMessage | src/services/api.ts:108-110 | on an empty cache, a failed envelope's message becomes the error and the cache stays empty |
| DomainClient.InvalidateAll | src/services/api.ts:277-278 | successive invalidations keep exactly the keys that start with none of the prefixes |
| DomainClient.OptimisticThreadVote | src/services/api.ts:252-264 | with a live cached detail and a signed-in id, the cached detail's votes are cast for that user and re-stored at `now`; otherwise entries are only lost to expiry; keys other than the two it reads are untouched |
| DomainClient.FindComment | src/services/api.ts:362 | the index of the first comment with the id, or -1 when none has it |
| DomainClient.CastOnComment | src/services/api.ts:362-371 | only the first matching comment has the vote cast; the list keeps its length and every other comment |
| DomainClient.OptimisticCommentVote | src/services/api.ts:358-373 | the comment-vote counterpart of the thread edit, applied through `CastOnComment` |
| DomainClient.EditAsWritten | src/services/api.ts:250-264 | the optimistic step each operation takes as written: at most expired entries disappear, no live entry is lost, and operations other than votes leave the cache alone |
| DomainClient.Complete | src/services/api.ts:266-278 | after an edit: cache-first reads are returned as cached; the token guard fails auth endpoints; a failure stores nothing and loses no live entry; a success drops every invalidated key family and keeps the rest |
| DomainClient.Run | src/services/api.ts:250-281 | one endpoint call as written: cache-first reads are returned as cached; the token guard fails auth endpoints; a failure adds nothing to the cache and loses no live entry; a success drops every invalidated key family and no other live entry |
| DomainClient.RunIntended | src/services/api.ts:250-281 | the same call with the corrected optimistic edit: a failure keeps the edit; a success drops every invalidated key family and keeps the rest of the edited cache |
| DomainClient.PutAccessToken | src/services/api.ts:59-62 | the token is stored and the cache emptied |
| DomainClient.ClearCache | src/services/api.ts:480-482 | the cache is emptied; token and controllers are kept |
| DomainClient.AbortAllPending | src/services/api.ts:484-487 | every controller is dropped; the cache is kept |
| DomainClient.TokenChangeForcesRefetch | src/services/api.ts:59-62 | after a token change no cached key is live |
| DomainClient.FailedVoteKeepsOptimisticEdit | src/services/api.ts:252-275 | with the corrected edit, a thread vote whose request fails leaves the optimistically cast votes in the cache |
| DomainClient.FailedVoteLeavesDetailUnedited | src/services/api.ts:252-275 | as written, a thread vote whose request fails leaves the live cached detail exactly as it was |
| DomainClient.SucceededVoteDropsThreadCaches | src/services/api.ts:277-278 | after a successful thread vote neither `thread-{id}` nor `threads` is cached |
| DomainClient.SeeAllThreadsScenario | src/services/api.ts:208-216 | the first call returns and caches the threads; a second call within the lifetime returns them whatever the network says |
| DomainClient.CachedProfileNeedsNoToken | src/services/api.ts:175-183 | a live cached profile is returned without a token |
| DomainClient.OptimisticEditAsWritten | src/services/api.ts:252-255 | the edit as written adds and changes nothing, loses no live entry, and touches no key besides the two it reads |
| DomainClient.OptimisticEditNeverApplies | src/services/api.ts:254-255 | on a cache holding a live detail and profile, the edit as written changes nothing, while the corrected one records the up-vote |
| VoteSets.Without | src/features/threads/reducer.ts:27 | the list without any occurrence of the id, every other id kept; their order is stated by `WithoutAppend` |
| VoteSets.WithoutAppend | src/features/threads/reducer.ts:27 | filtering a concatenation filters each part and keeps them in order, so the remaining ids keep their order |
| VoteSets.Toggle | src/features/threads/reducer.ts:26-28 | a present id is removed everywhere (the list is `Without` it); an absent one is appended once at the end, the list growing by one with the old ids in front; other ids keep their membership |
| VoteSets.Include | src/services/api.ts:256-258 | a present id leaves the list as it is; an absent one is appended once at the end, the list growing by one with the old ids in front |
| VoteSets.ToggleVote | src/features/threads/reducer.ts:21-65 | the reducer rule for up, down and neutral votes; membership of the voter after the action is stated per case, other users keep theirs |
| VoteSets.CastVote | src/services/api.ts:252-264 | the optimistic rule: up puts the voter in up-voters only, down in down-voters only, neutral in neither; other users keep their membership |
| VoteSets.WithoutNoDup | src/features/threads/reducer.ts:27 | removing an id keeps a duplicate-free list duplicate-free |
| VoteSets.ToggleVoteWellFormed | src/features/threads/reducer.ts:21-65 | toggling keeps both lists duplicate-free and disjoint |
| VoteSets.CastVoteWellFormed | src/services/api.ts:252-264 | casting keeps both lists duplicate-free and disjoint |
| VoteSets.ToggleUpTwice | src/features/threads/reducer.ts:21-35 | two up-votes by a user who was not an up-voter restore the up-voters exactly and leave the user out of the down-voters |
| VoteSets.ToggleDownTwice | src/features/threads/reducer.ts:36-50 | two down-votes by a user who was not a down-voter restore the down-voters exactly and leave the user out of the up-voters |
| VoteSets.CastVoteIdempotent | src/services/api.ts:252-264 | casting the same vote twice equals casting it once |
| ThreadsReducer.VoteOnThreads | src/features/threads/reducer.ts:22-35 | the list keeps its length; matching threads have the vote toggled; the others are unchanged |
| ThreadsReducer.Reduce | src/features/threads/reducer.ts:15-70 | receive replaces the list, create prepends, votes change only the votes of matching threads, unknown actions leave the state |
| ThreadsReducer.VoteOnMatchingThread | src/features/threads/reducer.ts:21-65 | on a matching thread, up/down toggle the voter's membership and neutral removes it; other users are unaffected |
| ThreadsReducer.VotesStayWellFormed | src/features/threads/reducer.ts:21-65 | every reducer step keeps all vote lists duplicate-free and disjoint |
| ThreadDetailReducer.VoteOnComments | src/features/threads/Detail/reducer.ts:43-69 | matching comments have the vote toggled, the others are unchanged |
| ThreadDetailReducer.Reduce | src/features/threads/Detail/reducer.ts:9-72 | an absent detail stays absent under every action but receive; thread votes toggle; a new comment is prepended; comment votes touch only matching comments |
| ThreadDetailReducer.VotesStayWellFormed | src/features/threads/Detail/reducer.ts:12-69 | every step keeps the thread's and each comment's vote lists well formed |
| StoreReducers.LastWrite | src/features/auth/reducer.ts:4-13 | with no writing action the state is the initial one; otherwise it is the value of the last write |
| StoreReducers.ReplayIsLastWrite | src/features/auth/reducer.ts:4-13 | replaying any reducer of the "write or keep" shape equals the last write |
| StoreReducers.ReduceAuthUser | src/features/auth/reducer.ts:4-13 | set stores the user, unset clears it, other actions keep it |
| StoreReducers.AuthUserIsLastWrite | src/features/auth/reducer.ts:4-13 | the auth user after any action sequence is the last set/unset, or none |
| StoreReducers.ReduceIsPreload | src/features/ispreload/reducer.ts:4-11 | set stores the flag, other actions keep it |
| StoreReducers.PreloadUntilSet | src/features/ispreload/reducer.ts:4 | the flag stays true until the first set |
| StoreReducers.ReduceLeaderboards | src/features/leaderboards/reducer.ts:5-12 | receive replaces the list, other actions keep it |
| StoreReducers.LeaderboardsIsLastWrite | src/features/leaderboards/reducer.ts:5-12 | the list is the last one received, or empty |
| StoreReducers.ReduceUsers | src/features/user/reduce.ts:4-11 | receive replaces the list, other actions keep it |
| StoreReducers.UsersIsLastWrite | src/features/user/reduce.ts:4-11 | the list is the last one received, or empty |
| VoteButton.OnUpVoteClick | src/components/button/VoteButton.tsx:26-32 | neutralise iff the user has already up-voted, otherwise up-vote |
| VoteButton.OnDownVoteClick | src/components/button/VoteButton.tsx:34-40 | neutralise iff the user has already down-voted, otherwise down-vote |
| VoteButton.DisplayedCounts | src/components/button/VoteButton.tsx:70-106 | the shown numbers are the lengths of the two lists |
| VoteButton.ThreadAction | src/components/button/VoteButton.tsx:26-40 | each callback becomes the thread action of the same kind for that user |
| VoteButton.UpClickFlipsUpVote | src/components/button/VoteButton.tsx:26-32 | clicking up and reducing flips whether the user is an up-voter |
| VoteButton.DownClickFlipsDownVote | src/components/button/VoteButton.tsx:34-40 | clicking down and reducing flips whether the user is a down-voter |
| VoteButton.UpClickTwiceRestores | src/components/button/VoteButton.tsx:26-32 | two up clicks by a user who had not voted restore the thread |
| VoteButton.UpClickRaisesCount | src/components/button/VoteButton.tsx:78 | an up click by a user who had not voted raises the up count by one |
| RegisterPage.Score | src/pages/RegisterPages.tsx:95-101 | the score counts the met criteria, at most six |
| RegisterPage.CheckPasswordStrength | src/pages/RegisterPages.tsx:85-119 | an empty password gives strength 0 and no hint; otherwise the strength is `min(score*100/6, 100)`, truncated |
| RegisterPage.NonEmptyScoresSomething | src/pages/RegisterPages.tsx:95-103 | any non-empty password scores at least 16 |
| RegisterPage.StrengthSteps | src/pages/RegisterPages.tsx:103 | strength is one of 0, 16, 33, 50, 66, 83, 100 |
| RegisterPage.VeryStrongNeedsAllSix | src/pages/RegisterPages.tsx:95-118 | a non-empty password gets the "very strong" hint iff it meets all six criteria |
| RegisterPage.StrengthMonotone | src/pages/RegisterPages.tsx:95-103 | appending a character to a non-empty password never lowers its strength |
| RegisterPage.HintMatchesColor | src/pages/RegisterPages.tsx:106-129 | the hint's band agrees with the colour's band |
| RegisterPage.ClassifyRegisterError | src/pages/RegisterPages.tsx:45-56 | email errors iff the message mentions email and exists/taken/already in use, case-insensitively; then password, then name, then general; the message is shown verbatim except for email; empty gives the fallback |
| RegisterPage.ClassificationIgnoresCase | src/pages/RegisterPages.tsx:45-52 | upper-casing the message does not change its field |
| RegisterPage.EmailTakenWins | src/pages/RegisterPages.tsx:45-49 | "Email already exists" is an email error |
| RegisterInput.Score | src/components/auth/register/RegisterInput.tsx:62-69 | the score counts the five criteria |
| RegisterInput.CheckPasswordStrength | src/components/auth/register/RegisterInput.tsx:56-74 | no level iff the password is empty; weak iff a non-empty password scores at most 2; strong iff it meets all five criteria |
| RegisterInput.StrongHereIsStrongThere | src/components/auth/register/RegisterInput.tsx:62-73 | a password strong in this meter has strength at least 83 in the register page's meter |
| RegisterInput.MetersDisagree | src/components/auth/register/RegisterInput.tsx:62-73 | "abcdefgh-" is weak here but medium (50) on the register page |
| RegisterInput.SubmitAsWritten | src/components/auth/register/RegisterInput.tsx:76-100 | missing fields stop with the missing-fields alert and mismatched passwords with the mismatch alert; a complete matching form registers, alerting taken-email then success when the email is taken and only success otherwise |
| RegisterInput.Submit | src/components/auth/register/RegisterInput.tsx:76-100 | the same alerts for missing fields and mismatched passwords; a taken email stops with the taken-email alert alone and registers nothing; otherwise the form registers with the success alert |
| RegisterInput.TakenEmailStillRegisters | src/components/auth/register/RegisterInput.tsx:90-98 | a complete form with a taken email registers and shows both alerts as written, and registers nothing when corrected |
| RegisterInput.WrittenDiffersOnlyOnTakenEmail | src/components/auth/register/RegisterInput.tsx:76-100 | for every form, the written and corrected submits differ exactly on a complete matching form with a taken email, where the written one adds the success alert and registers |
| RegisterInput.EnabledButtonRegisters | src/components/auth/register/RegisterInput.tsx:351-359 | whenever the button is enabled, the as-written and corrected handlers agree and, once `handleSubmit` runs, both call `register` with the form's user |
| LoginInput.Submit | src/components/auth/login/LoginInput.tsx:25-42 | a blank email is rejected first, then a blank password; otherwise the untrimmed email and password are sent with an empty name |
| LoginInput.SpacesAreKept | src/components/auth/login/LoginInput.tsx:41 | given a padded email, `handleSubmit` passes it to `login` untrimmed; given only spaces, it rejects the email as empty |
| LoginInput.HintDoesNotBlock | src/components/auth/login/LoginInput.tsx:125 | "budi" shows the format hint and `handleSubmit` still calls `login` with it |
| LoginInput.DecidesOnTrimmedFields | src/components/auth/login/LoginInput.tsx:25-42 | for all fields, trimming them first gives the same rejection, or the same login with the trimmed values |
| LoginInput.HintIsIndependent | src/components/auth/login/LoginInput.tsx:25-42 | for every email showing the format hint, `handleSubmit` calls `login` exactly when neither field is blank; four spaces show the hint and the handler rejects them as empty |
| ThreadInput.Submit | src/components/threads/ThreadInput.tsx:21-30 | a thread is sent iff all three fields are non-blank, with each field trimmed |
| ThreadInput.EnabledIffSubmits | src/components/threads/ThreadInput.tsx:133 | when not submitting, the button is enabled iff a submit would send |
| ThreadInput.SentFieldsAreTrimmed | src/components/threads/ThreadInput.tsx:24-28 | every sent field is its own trim |
| ThreadInput.QuickTagIsSentAsIs | src/components/threads/ThreadInput.tsx:84-88 | a quick tag becomes the sent category unchanged |
| CommentInput.SubmittedText | src/components/comments/CommentInput.tsx:24-29 | nothing is sent for a blank comment or while loading; otherwise the trimmed text |
| CommentInput.AfterSubmit | src/components/comments/CommentInput.tsx:28-39 | success clears the text and focus; failure keeps the text; loading ends either way |
| CommentInput.Clear | src/components/comments/CommentInput.tsx:53-61 | clears the text and the emoji picker and keeps loading; the focus flag ends set exactly when a text area exists that did not hold the focus, which the refocus turns back on |
| CommentInput.KeyDown | src/components/comments/CommentInput.tsx:42-51 | Ctrl/Meta+Enter submits, Escape unfocuses, other keys do nothing |
| CommentInput.InsertEmoji | src/components/comments/CommentInput.tsx:63-78 | the picker closes and nothing but the text changes; without a textarea the text is unchanged; otherwise the caret lands after the emoji, and for an in-range selection the text is the part before, the emoji, then the part after |
| CommentInput.InsertThenRemove | src/components/comments/CommentInput.tsx:63-78 | removing the inserted emoji gives back the text without the selection |
| CommentInput.InsertAtEndAppends | src/components/comments/CommentInput.tsx:63-78 | inserting at the end appends the emoji |
| CommentInput.Counter | src/components/comments/CommentInput.tsx:133 | the count is shown up to 99, then "99+" |
| CommentInput.OverLimitIsNearLimit | src/components/comments/CommentInput.tsx:82-85 | over the limit implies near it |
| CommentInput.EnabledButtonSends | src/components/comments/CommentInput.tsx:228 | an enabled button sends a comment of at most 1000 characters |
| CommentInput.ShortcutIgnoresLimit | src/components/comments/CommentInput.tsx:42-46 | Ctrl+Enter sends a 1001-character comment that the button refuses |
| ThreadItem.CategoryColorAsWritten | src/components/threads/ThreadItem.tsx:50-60 | the badge class for the six categories, case-insensitively; the gray default for other names; an inherited member for "constructor" and "__proto__" |
| ThreadItem.CategoryColor | src/components/threads/ThreadItem.tsx:50-60 | the same lookup on own entries only: never an inherited member |
| ThreadItem.AgreesOutsideInherited | src/components/threads/ThreadItem.tsx:59 | the two lookups agree on every name outside the inherited ones |
| ThreadItem.ConstructorLeaks | src/components/threads/ThreadItem.tsx:59 | "Constructor" yields an inherited member as written and gray when corrected |
| ThreadItem.ColorIgnoresCase | src/components/threads/ThreadItem.tsx:59 | upper-casing the category does not change the colour |
| ThreadItem.Excerpt | src/components/threads/ThreadItem.tsx:62-65 | with the default limit of 150, a body of at most 150 characters is shown whole; a longer one as its first 150 characters then "...", 153 in all |
| ThreadItem.TruncateText | src/components/threads/ThreadItem.tsx:62-65 | text within the limit is unchanged; longer text is its first `maxLength` characters then "..." |
| ThreadItem.TruncateIsPrefix | src/components/threads/ThreadItem.tsx:62-65 | the result without the ellipsis is a prefix of the text |
| ThreadItem.TruncateIdempotent | src/components/threads/ThreadItem.tsx:62-65 | for every text and limit, truncating twice equals truncating once |
| ThreadDetailView.CategoryColorAsWritten | src/components/threads/ThreadDetail.tsx:48-58 | the detail view's lookup, with the card's behaviour |
| ThreadDetailView.SameBadgeAsCard | src/components/threads/ThreadDetail.tsx:48-58 | the detail view and the card give every category the same badge |
| ThreadDetailView.SixCategories | src/components/threads/ThreadDetail.tsx:49-56 | exactly six categories have a colour of their own |
| HomePage.Distinct | src/pages/HomePages.tsx:27-29 | the same members as the input, without duplicates, ordered by where each first occurs in the input |
| HomePage.DistinctByScan | src/pages/HomePages.tsx:27-29 | the loop with a seen set computes the same list |
| HomePage.Categories | src/pages/HomePages.tsx:27-29 | every thread's category appears exactly once, and nothing else, in the order the categories first occur in the thread list |
| HomePage.FindUser | src/pages/HomePages.tsx:53 | the first user with the owner's id, or none when no user has it |
| HomePage.MergeThreads | src/pages/HomePages.tsx:50-56 | the list keeps its length and order; each thread keeps its data and gains the signed-in id; it has an owner iff some user has its owner id, and then the owner is the first such user |
| HomePage.FilterThreads | src/pages/HomePages.tsx:58-61 | no filter shows everything; otherwise exactly the threads of that category, never more threads than the list has |
| HomePage.FilterAppend | src/pages/HomePages.tsx:58-61 | filtering a concatenation filters each part and keeps them in order, so the kept threads stay in list order |
| HomePage.OwnerOfUniqueIds | src/pages/HomePages.tsx:50-56 | with distinct user ids, each thread whose owner is among the users shows exactly that owner |
| HomePage.MergePrepend | src/pages/HomePages.tsx:50-56 | a thread prepended to the list adds its view in front and leaves the other views unchanged |
| HomePage.ToggleFilter | src/pages/HomePages.tsx:74-76 | the filter becomes empty iff the clicked category is the active one (or empty); otherwise it becomes the clicked category |
| HomePage.ToggleTwice | src/pages/HomePages.tsx:74-76 | from any filter, clicking the same category twice makes it active again if it was active, and clears the filter otherwise |
| HomePage.EveryCategoryShowsSomething | src/pages/HomePages.tsx:27-61 | filtering by any listed category shows at least one thread |
| Navbar.NavbarMenu | src/hooks/useNavbarMenu.ts:9-26 | three items with keys h, l, r linking home, login and register, titled Beranda, Login, Daftar for the locale `id` and Home, Login, Register otherwise |
| Navbar.HighlightedParts | src/components/navbar/Navbar.tsx:8-17 | none found leaves the whole title before; otherwise before, highlighted and after rebuild the title, and the highlighted character matches the key case-insensitively; the split is at the first case-insensitive occurrence of the key |
| Navbar.MenuTitlesShowShortcut | src/hooks/useNavbarMenu.ts:9-26 | in English every title contains its shortcut letter |
| Navbar.BerandaShowsNoShortcut | src/hooks/useNavbarMenu.ts:11-13 | "Beranda" has no "h" to highlight |
| Navbar.EmptyTitleHighlightsNothing | src/components/navbar/Navbar.tsx:10 | an empty title highlights nothing |
| Navbar.ActiveIffBelow | src/components/navbar/Navbar.tsx:19-23 | a link other than the root is active exactly on its own path and on paths below it after a `/`; the root only on itself |
| Navbar.ActiveBelowActive | src/components/navbar/Navbar.tsx:19-23 | going one segment below an active non-root link keeps it active |
| Navbar.ActiveBySegment | src/components/navbar/Navbar.tsx:19-23 | `/thread` is not active on `/threads`, `/threads` is active on `/threads/1`, and `/` is not active on `/threads` |
| Navbar.FindByKey | src/components/navbar/navbar-listener.tsx:16 | none iff no item has the key; otherwise an item of the menu with the key that no earlier item has |
| Navbar.HandleKeydown | src/components/navbar/navbar-listener.tsx:12-18 | typing targets never navigate; otherwise navigation goes to the item whose key is the lower-cased key |
| Navbar.ShortcutsReachEveryPage | src/components/navbar/navbar-listener.tsx:12-18 | outside typing targets, h, L and r reach home, login and register in either locale |
| Navbar.ShortcutIgnoresCase | src/components/navbar/navbar-listener.tsx:16 | "H" navigates like "h" |
| Sidebar.AtMostOneActive | src/components/navbar/fakenavbar.tsx:13-20 | at most one sidebar link is active |
| Sidebar.Split | src/components/navbar/fakenavbar.tsx:67 | at least one piece; the last piece is empty iff the name is empty or ends in a space |
| Sidebar.SplitHasNoSpaces | src/components/navbar/fakenavbar.tsx:67 | no piece contains a space |
| Sidebar.SplitJoin | src/components/navbar/fakenavbar.tsx:67 | joining the pieces with single spaces gives back the name |
| Sidebar.HeadsOfSplit | src/components/navbar/fakenavbar.tsx:67 | the first characters of the pieces are the first characters of the words |
| Sidebar.Initials | src/components/navbar/fakenavbar.tsx:67 | at most two upper-cased word initials, in order |
| Sidebar.InitialsOfTwoWords | src/components/navbar/fakenavbar.tsx:67 | a word, any run of spaces, then more text: the initials are the upper-cased first letters of the two words, so a doubled space adds no initial |
| StoredSettings.Initial | src/contexts/ThemeContext.tsx:12-14 | the given value, else the stored one, else the default |
| StoredSettings.Toggle | src/contexts/ThemeContext.tsx:16-20 | switches between the two values and stores the new one |
| StoredSettings.ToggleSurvivesReload | src/contexts/ThemeContext.tsx:12-20 | after a toggle a fresh start without a given value restores the toggled value |
| StoredSettings.ToggleTwice | src/contexts/LocaleContext.tsx:15-21 | two toggles restore the setting |
| StoredSettings.FirstVisit | src/contexts/LocaleContext.tsx:13 | with nothing stored the default is used: light theme, Indonesian locale |
| StoredSettings.SettingsIndependent | src/contexts/LocaleContext.tsx:15-21 | toggling one setting leaves the other's stored value |

## Left out

- Network, JSON parsing, `localStorage` and `Date.now()`. A request is a parameter carrying the server's reply and its arrival time. Storage is a map.
- `register` in `api.ts` (lines 127-146). It calls `fetch` directly, outside the coordinator, and only logs and rethrows.
- `getAccessToken`. It is a storage read, modelled as the client's `token` field.
- The final projection each endpoint makes (`data.users`, `data.thread`, ...). Endpoints return the envelope's `data` object.
- The abort signal itself. The controller is never handed to `fetch`, so aborting has no observable effect beyond the registry.
- Interleaving of concurrent requests. Each call is modelled as one atomic step.
- The positional `commentId` argument of the comment-vote functions, and regular-expression escaping of ids. Prefixes are compared literally.
- Unicode case mapping and UTF-16 length. Case mapping is ASCII, and length counts characters.
- Thunks and action creators in `features/*/action.ts`. They only sequence API calls and dispatches.
- `getPlainText` in `ThreadItem.tsx`. It strips HTML from a body through the DOM; `ThreadItem.Excerpt` takes the plain text it produces.
- The browser's built-in form validation. The login email input is `type="email"` and `required` and the password `required` (`LoginInput.tsx`); the register email input is `type="email"` (`RegisterInput.tsx`). The browser can stop a submit before `handleSubmit` runs, and it strips the spaces around an email value. The submit members state what `handleSubmit` does once it runs.
- `LoginInput.HintDoesNotBlock`: states that `handleSubmit` accepts "budi". On the page, the browser's `type="email"` check stops that submit before the handler runs.
- `LoginInput.HintIsIndependent`: states the handler's decision for hinted emails. On the page no hinted email, since none contains '@', passes the browser's `type="email"` check.
- `LoginInput.SpacesAreKept`: states that `handleSubmit` passes a padded email untrimmed. On the page an email input strips those spaces before the handler reads the value.
- `RegisterInput.EnabledButtonRegisters`: states what happens once `handleSubmit` runs. An enabled button with an email the browser rejects (such as "budi") registers nothing.
- Rendering (JSX, icons, animation, confetti), the debounced email-availability check, textarea resizing, focus and DOM effects, the progress bar's width, and the `maxLength` attributes of inputs.
- `DomainClient.Run`: returns the envelope payload rather than the record each endpoint projects out of it.
- `Navbar.HighlightedParts`: the round trip is stated for a non-empty key only. For an empty key, `indexOf` finds position 0 and the first character is highlighted.
- `CommentInput.InsertEmoji`: the splice is stated for selections inside the text. Out-of-range selections are clamped as `substring` does. The deferred refocus of the text area (a `setTimeout`) is not modelled, so the focus flag is left as it was.

## Findings

| source | as written | input that shows it | evidently intended | confidence | as-written member | corrected member |
|---|---|---|---|---|---|---|
| src/services/api.ts:252-255 | the optimistic vote edit reads the cached `thread-{id}` entry as a thread detail and `profile` as a user, but the cache holds the envelope objects `{detailThread}` and `{user}`; `.id` is undefined, so the edit never happens | a cache holding a live detail of `t1` and the profile of `u1`, then an up-vote on `t1` | the detail's votes are cast for the signed-in user before the request | not executed | DomainClient.OptimisticEditNeverApplies | DomainClient.OptimisticThreadVote |
| src/components/threads/ThreadItem.tsx:59 | the colour lookup indexes a plain object, so "constructor" and "__proto__" return inherited `Object.prototype` members instead of the gray default | category "Constructor" | unknown categories get the gray badge | not executed | ThreadItem.ConstructorLeaks | ThreadItem.CategoryColor |
| src/components/auth/register/RegisterInput.tsx:90-98 | the comment says not to submit when the email exists, but `register` is called anyway after the alert | a complete, matching form whose email is already taken | a taken email stops the submission | not executed | RegisterInput.TakenEmailStillRegisters | RegisterInput.Submit |

=== FILE: cache_store.dfy ===
/** The API client's `CacheManager`: a string-keyed store whose entries expire a
    fixed duration after they were stored. The clock is an explicit argument
    (`now`, in milliseconds) wherever the source reads `Date.now()`. Every
    invalidation pattern the client uses is a `^`-anchored literal, so a pattern
    is modelled by its literal prefix. */
module CacheStore {
  import opened Wrappers
  import opened JsText

  /** The default lifetime of an entry: five minutes, in milliseconds. */
  const DefaultDuration: int := 5 * 60 * 1000

  datatype Entry<V> = Entry(data: V, timestamp: int)

  datatype Cache<V> = Cache(entries: map<string, Entry<V>>, duration: int)

  /** A read returns a value (or none) together with the cache it leaves behind,
      because reading an expired entry deletes it. */
  datatype Lookup<V> = Lookup(value: Option<V>, cache: Cache<V>)

  /** `new CacheManager()`: empty, with the default lifetime. */
  function Empty<V>(): (c: Cache<V>)
    ensures c.entries == map[] && c.duration == DefaultDuration
  {
    Cache(map[], DefaultDuration)
  }

  /** An entry is expired strictly after `timestamp + duration`: it is still
      served at exactly that instant. */
  predicate Expired<V>(e: Entry<V>, duration: int, now: int) {
    now > e.timestamp + duration
  }

  predicate Live<V>(c: Cache<V>, key: string, now: int) {
    key in c.entries && !Expired(c.entries[key], c.duration, now)
  }

  /** `get(key)`: the stored data while live; an expired entry is deleted and
      reported missing; a missing key leaves the cache as it is. */
  function Get<V>(c: Cache<V>, key: string, now: int): (r: Lookup<V>)
    ensures r.value.Some? <==> Live(c, key, now)
    ensures r.value.Some? ==> r.value.value == c.entries[key].data && r.cache == c
    ensures key !in c.entries ==> r.cache == c
    ensures key in c.entries && !Live(c, key, now) ==>
      key !in r.cache.entries && r.cache == c.(entries := c.entries - {key})
  {
    if key !in c.entries then Lookup(None, c)
    else if Expired(c.entries[key], c.duration, now) then Lookup(None, c.(entries := c.entries - {key}))
    else Lookup(Some(c.entries[key].data), c)
  }

  /** `set(key, data)`: stores `data` stamped with `now`; no other key changes. */
  function Set<V>(c: Cache<V>, key: string, data: V, now: int): (r: Cache<V>)
    ensures key in r.entries && r.entries[key] == Entry(data, now)
    ensures r.duration == c.duration
    ensures forall k :: k != key ==> (k in r.entries <==> k in c.entries)
    ensures forall k :: k != key && k in c.entries ==> r.entries[k] == c.entries[k]
  {
    c.(entries := c.entries[key := Entry(data, now)])
  }

  /** `invalidate(/^prefix/)`: deletes exactly the keys that start with `prefix`. */
  function Invalidate<V>(c: Cache<V>, prefix: string): (r: Cache<V>)
    ensures r.duration == c.duration
    ensures forall k :: k in r.entries <==> k in c.entries && !StartsWith(k, prefix)
    ensures forall k :: k in r.entries ==> r.entries[k] == c.entries[k]
  {
    c.(entries := map k | k in c.entries && !StartsWith(k, prefix) :: c.entries[k])
  }

  /** `clear()`: no entry survives. */
  function Clear<V>(c: Cache<V>): (r: Cache<V>)
    ensures r.entries == map[] && r.duration == c.duration
  {
    c.(entries := map[])
  }

  /** The `for (const key of cache.keys())` loop of `invalidate`, deleting key by
      key; it computes the same cache as `Invalidate`. */
  method InvalidateByScan<V>(c: Cache<V>, prefix: string) returns (r: Cache<V>)
    ensures r == Invalidate(c, prefix)
  {
    var m := c.entries;
    var remaining := c.entries.Keys;
    while remaining != {}
      invariant remaining <= c.entries.Keys
      invariant forall k :: k in m <==> k in c.entries && (k in remaining || !StartsWith(k, prefix))
      invariant forall k :: k in m ==> m[k] == c.entries[k]
      decreases remaining
    {
      var k :| k in remaining;
      if StartsWith(k, prefix) {
        m := m - {k};
      }
      remaining := remaining - {k};
    }
    r := c.(entries := m);
  }

  /** Storing then reading the same key within the lifetime returns what was stored. */
  lemma SetThenGet<V>(c: Cache<V>, key: string, data: V, t: int, t': int)
    requires t <= t' <= t + c.duration
    ensures Get(Set(c, key, data, t), key, t').value == Some(data)
  {
  }

  /** Once the lifetime has passed, the entry reads as missing and is gone. */
  lemma GetAfterExpiry<V>(c: Cache<V>, key: string, data: V, t: int, t': int)
    requires t' > t + c.duration
    ensures Get(Set(c, key, data, t), key, t').value == None
    ensures key !in Get(Set(c, key, data, t), key, t').cache.entries
  {
  }

  /** Reading one key never disturbs another key's entry. */
  lemma GetKeepsOtherKeys<V>(c: Cache<V>, key: string, other: string, now: int)
    requires other != key
    ensures other in Get(c, key, now).cache.entries <==> other in c.entries
    ensures other in c.entries ==> Get(c, key, now).cache.entries[other] == c.entries[other]
  {
  }

  /** After `clear()` every read misses. */
  lemma GetAfterClear<V>(c: Cache<V>, key: string, now: int)
    ensures Get(Clear(c), key, now).value == None
  {
  }

  /** The pattern is a prefix test, so invalidating `thread-1` also drops `thread-10`. */
  lemma InvalidatePrefixOverlap<V>(c: Cache<V>)
    requires "thread-10" in c.entries
    ensures "thread-10" !in Invalidate(c, "thread-1").entries
  {
    assert StartsWith("thread-10", "thread-1");
  }

  /** With keys `thread-1`, `thread-2` and `threads`: `^thread-` drops the two
      per-thread keys only, `^threads` drops `threads` only. */
  lemma InvalidateKeyFamilies<V>(c: Cache<V>)
    requires c.entries.Keys == {"thread-1", "thread-2", "threads"}
    ensures Invalidate(c, "thread-").entries.Keys == {"threads"}
    ensures Invalidate(c, "threads").entries.Keys == {"thread-1", "thread-2"}
  {
    assert StartsWith("thread-1", "thread-") && StartsWith("thread-2", "thread-");
    assert "threads"[..7][6] != "thread-"[6];
    assert StartsWith("threads", "threads");
    assert "thread-1"[..7][6] != "threads"[6] && "thread-2"[..7][6] != "threads"[6];
  }
}

=== FILE: comment_input.dfy ===
/** The comment composer: submitting, clearing, emoji insertion at the caret,
    and the character counter. */
module CommentInput {
  import opened Wrappers
  import opened JsText

  const MaxCharacters: nat := 1000

  datatype Composer = Composer(comment: string, isLoading: bool, isFocused: bool, showEmojiPicker: bool)

  /** The text `onCommentSubmit` hands to `addComment`, if it sends anything. */
  function SubmittedText(c: Composer): (r: Option<string>)
    ensures r.Some? <==> !IsBlank(c.comment) && !c.isLoading
    ensures r.Some? ==> r.value == Trim(c.comment) && r.value != ""
  {
    if IsBlank(c.comment) || c.isLoading then None else Some(Trim(c.comment))
  }

  /** The composer once `addComment` has settled: cleared and unfocused when it
      succeeded, the text kept when it failed, not loading either way. A submit
      that sends nothing changes nothing. */
  function AfterSubmit(c: Composer, succeeded: bool): (r: Composer)
    ensures SubmittedText(c).None? ==> r == c
    ensures SubmittedText(c).Some? && succeeded ==> r == c.(comment := "", isFocused := false, isLoading := false)
    ensures SubmittedText(c).Some? && !succeeded ==> r == c.(isLoading := false)
  {
    if SubmittedText(c).None? then c
    else if succeeded then c.(comment := "", isFocused := false, isLoading := false)
    else c.(isLoading := false)
  }

  /** `handleClear`. It also refocuses the text area when there is one
      (`textarea` is `Some(hasFocus)`, telling whether it already holds the
      focus): a text area that did not have it fires `onFocus`, which sets the
      flag again; one that had it fires nothing and the flag stays cleared. */
  function Clear(c: Composer, textarea: Option<bool>): (r: Composer)
    ensures r.comment == "" && !r.showEmojiPicker && r.isLoading == c.isLoading
    ensures r.isFocused <==> textarea == Some(false)
  {
    var cleared := c.(comment := "", isFocused := false, showEmojiPicker := false);
    if textarea == Some(false) then cleared.(isFocused := true) else cleared
  }

  /** The keyboard: Ctrl or Cmd with Enter submits, Escape leaves the field. */
  datatype KeyEffect = SubmitRequested | Blurred | NoEffect

  function KeyDown(key: string, ctrlKey: bool, metaKey: bool): (r: KeyEffect)
    ensures r == SubmitRequested <==> key == "Enter" && (ctrlKey || metaKey)
    ensures r == Blurred <==> key == "Escape"
  {
    if key == "Enter" && (ctrlKey || metaKey) then SubmitRequested
    else if key == "Escape" then Blurred
    else NoEffect
  }

  datatype Selection = Selection(start: int, end: int)

  /** The composer after the insertion and, when a text area exists, where
      the caret is put. */
  datatype Insertion = Insertion(composer: Composer, caret: Option<int>)

  /** `insertEmoji`: the emoji replaces the selection and the caret lands right
      after it; without a text area the text is unchanged. The picker closes
      either way, and nothing else changes. */
  function InsertEmoji(c: Composer, emoji: string, selection: Option<Selection>): (r: Insertion)
    ensures !r.composer.showEmojiPicker
    ensures r.composer == c.(comment := r.composer.comment, showEmojiPicker := false)
    ensures selection.None? ==> r.composer.comment == c.comment && r.caret.None?
    ensures selection.Some? ==> r.caret == Some(selection.value.start + |emoji|)
    ensures selection.Some? && 0 <= selection.value.start <= selection.value.end <= |c.comment| ==>
      var s := selection.value;
      && r.composer.comment == c.comment[..s.start] + emoji + c.comment[s.end..]
      && r.composer.comment[..s.start + |emoji|] == c.comment[..s.start] + emoji
  {
    match selection
    case None => Insertion(c.(showEmojiPicker := false), None)
    case Some(s) =>
      var text := Substring(c.comment, 0, s.start) + emoji + Substring(c.comment, s.end, |c.comment|);
      Insertion(c.(comment := text, showEmojiPicker := false), Some(s.start + |emoji|))
  }

  /** Taking the emoji back out at the caret leaves the text with only the old
      selection removed. */
  lemma InsertThenRemove(c: Composer, emoji: string, start: int, end: int)
    requires 0 <= start <= end <= |c.comment|
    ensures var r := InsertEmoji(c, emoji, Some(Selection(start, end))).composer.comment;
      r[..start] + r[start + |emoji|..] == c.comment[..start] + c.comment[end..]
  {
    var r := InsertEmoji(c, emoji, Some(Selection(start, end))).composer.comment;
    assert r[..start] == c.comment[..start];
    assert r[start + |emoji|..] == c.comment[end..];
  }

  /** With the caret at the end, the emoji is appended. */
  lemma InsertAtEndAppends(c: Composer, emoji: string)
    ensures InsertEmoji(c, emoji, Some(Selection(|c.comment|, |c.comment|))) ==
      Insertion(c.(comment := c.comment + emoji, showEmojiPicker := false), Some(|c.comment| + |emoji|))
  {
    assert c.comment[|c.comment|..] == [];
    assert c.comment[..|c.comment|] == c.comment;
  }

  // ---- the counter ----

  /** `characterCount > maxCharacters * 0.8`; the product is exactly 800. */
  predicate IsNearLimit(count: nat) { count * 10 > MaxCharacters * 8 }

  predicate IsOverLimit(count: nat) { count > MaxCharacters }

  /** What the counter shows. */
  datatype CounterLabel = Count(n: nat) | NinetyNinePlus

  function Counter(count: nat): (r: CounterLabel)
    ensures r.Count? <==> count <= 99
    ensures r.Count? ==> r.n == count
  {
    if count > 99 then NinetyNinePlus else Count(count)
  }

  /** The submit button's `disabled` attribute. */
  predicate SubmitDisabled(c: Composer) {
    IsBlank(c.comment) || c.isLoading || IsOverLimit(|c.comment|)
  }

  lemma OverLimitIsNearLimit(count: nat)
    requires IsOverLimit(count)
    ensures IsNearLimit(count)
  {
  }

  /** An enabled button sends a comment of at most the limit. */
  lemma EnabledButtonSends(c: Composer)
    requires !SubmitDisabled(c)
    ensures SubmittedText(c).Some? && |SubmittedText(c).value| <= MaxCharacters
  {
  }

  /** The keyboard shortcut skips the button's limit: an over-long comment
      is still sent. */
  lemma ShortcutIgnoresLimit()
    ensures var c := Composer(seq(MaxCharacters + 1, _ => 'a'), false, true, false);
      SubmitDisabled(c) && KeyDown("Enter", true, false) == SubmitRequested && SubmittedText(c).Some?
  {
    var c := Composer(seq(MaxCharacters + 1, _ => 'a'), false, true, false);
    assert !IsWhiteSpace(c.comment[0]);
  }
}

=== FILE: domain_client.dfy ===
/** The typed operations of the API client (`api.ts`): each one names its URL,
    whether it needs the access token, the cache key it reads through, the key
    families it invalidates after a successful call, and, for votes, the
    optimistic edit it makes to the cached thread detail before the call. */
module DomainClient {
  import opened Wrappers
  import opened JsText
  import opened VoteSets
  import opened Entities
  import opened CacheStore
  import opened RequestCoordinator

  /** The `data` object of each endpoint's envelope. This object, not the
      record inside it, is what the cache stores: a thread detail is cached as
      `{detailThread}` and the profile as `{user}`. */
  datatype Payload =
    | TokenData(token: string)
    | UsersData(users: seq<User>)
    | ProfileData(user: User)
    | ThreadData(thread: Thread)
    | ThreadsData(threads: seq<Thread>)
    | DetailData(detailThread: DetailThread)
    | CommentData(comment: Comment)
    | VoteData(voteType: string)
    | LeaderboardsData(leaderboards: seq<LeaderboardItem>)

  /** The client's state: the cache, the abort registry, the stored access
      token (`localStorage['accessToken']`) and the configured base URL. */
  datatype Client = Client(
    cache: Cache<Payload>,
    registry: set<string>,
    token: Option<string>,
    baseUrl: string)

  datatype Step = Step(result: Result<Payload>, client: Client)

  /** One call of a domain operation, with the response the server gives it. */
  datatype Operation =
    | Login(response: Response<Payload>)
    | GetAllUsers(response: Response<Payload>)
    | GetOwnProfile(response: Response<Payload>)
    | CreateThread(response: Response<Payload>)
    | SeeAllThreads(response: Response<Payload>)
    | SeeDetailThread(threadId: string, response: Response<Payload>)
    | CreateComment(threadId: string, response: Response<Payload>)
    | VoteThread(threadId: string, vote: Vote, response: Response<Payload>)
    | VoteComment(threadId: string, commentId: string, vote: Vote, response: Response<Payload>)
    | SeeLeaderboards(response: Response<Payload>)

  const UsersKey: string := "users"
  const ProfileKey: string := "profile"
  const ThreadsKey: string := "threads"
  const LeaderboardsKey: string := "leaderboards"

  function ThreadKey(threadId: string): string {
    "thread-" + threadId
  }

  function VotePath(vote: Vote): string {
    match vote
    case Up => "up-vote"
    case Down => "down-vote"
    case Neutral => "neutral-vote"
  }

  function Path(op: Operation): string {
    match op
    case Login(_) => "/login"
    case GetAllUsers(_) => "/users"
    case GetOwnProfile(_) => "/users/me"
    case CreateThread(_) => "/threads"
    case SeeAllThreads(_) => "/threads"
    case SeeDetailThread(id, _) => "/threads/" + id
    case CreateComment(id, _) => "/threads/" + id + "/comments"
    case VoteThread(id, vote, _) => "/threads/" + id + "/" + VotePath(vote)
    case VoteComment(id, commentId, vote, _) => "/threads/" + id + "/comments/" + commentId + "/" + VotePath(vote)
    case SeeLeaderboards(_) => "/leaderboards"
  }

  /** Whether the request goes through `_fetchWithAuth`. */
  predicate NeedsAuth(op: Operation) {
    op.GetOwnProfile? || op.CreateThread? || op.CreateComment? || op.VoteThread? || op.VoteComment?
  }

  /** The `cacheKey` handed to `_fetchWithAbort`; empty for none. */
  function CacheKey(op: Operation): string {
    match op
    case GetAllUsers(_) => UsersKey
    case GetOwnProfile(_) => ProfileKey
    case SeeAllThreads(_) => ThreadsKey
    case SeeDetailThread(id, _) => ThreadKey(id)
    case SeeLeaderboards(_) => LeaderboardsKey
    case _ => ""
  }

  /** The `^`-anchored prefixes invalidated once the call has succeeded. */
  function Invalidations(op: Operation): seq<string> {
    match op
    case CreateThread(_) => [ThreadsKey]
    case CreateComment(id, _) => [ThreadKey(id)]
    case VoteThread(id, _, _) => [ThreadKey(id), ThreadsKey]
    case VoteComment(id, _, _, _) => [ThreadKey(id)]
    case _ => []
  }

  /** A key survives a list of invalidations when it starts with none of them. */
  predicate Survives(key: string, prefixes: seq<string>) {
    forall i :: 0 <= i < |prefixes| ==> !StartsWith(key, prefixes[i])
  }

  /** Successive `invalidate` calls, one per prefix. */
  function InvalidateAll<V>(c: Cache<V>, prefixes: seq<string>): (r: Cache<V>)
    decreases |prefixes|
    ensures r.duration == c.duration
    ensures forall k :: k in r.entries <==> k in c.entries && Survives(k, prefixes)
    ensures forall k :: k in r.entries ==> r.entries[k] == c.entries[k]
  {
    if |prefixes| == 0 then c else InvalidateAll(Invalidate(c, prefixes[0]), prefixes[1..])
  }

  /** `r` is `c` with at most some entries deleted. */
  ghost predicate SubCache<V>(r: Cache<V>, c: Cache<V>) {
    && r.duration == c.duration
    && r.entries.Keys <= c.entries.Keys
    && forall k :: k in r.entries ==> r.entries[k] == c.entries[k]
  }

  /** Every key outside `keys` has the same entry (or absence) in `c` and `r`. */
  ghost predicate SameOutside<V>(c: Cache<V>, r: Cache<V>, keys: set<string>) {
    && r.duration == c.duration
    && (forall k :: k !in keys ==> (k in r.entries <==> k in c.entries))
    && (forall k :: k !in keys && k in c.entries ==> r.entries[k] == c.entries[k])
  }

  /** The thread detail a live `thread-{id}` entry holds, if any. */
  function CachedDetail(c: Cache<Payload>, threadId: string, now: int): Option<DetailThread> {
    var l := Get(c, ThreadKey(threadId), now);
    if l.value.Some? && l.value.value.DetailData? then Some(l.value.value.detailThread) else None
  }

  /** The signed-in user's id from a live `profile` entry; empty when absent. */
  function SignedInId(c: Cache<Payload>, now: int): string {
    var l := Get(c, ProfileKey, now);
    if l.value.Some? && l.value.value.ProfileData? then l.value.value.user.id else ""
  }

  lemma ThreadKeyIsNotProfileKey(threadId: string)
    ensures ThreadKey(threadId) != ProfileKey
  {
    assert ThreadKey(threadId)[0] != ProfileKey[0];
  }

  /** The optimistic edit of `upVoteThread` / `downVoteThread` /
      `neutralizeVoteThread`, reading the cached `{detailThread}` and `{user}`
      objects through their fields: with a live detail and a signed-in id, the
      detail's votes are cast and the entry re-stored at `now`. */
  function OptimisticThreadVote(c: Cache<Payload>, threadId: string, vote: Vote, now: int): (r: Cache<Payload>)
    ensures CachedDetail(c, threadId, now).Some? && SignedInId(c, now) != "" ==>
      var d := CachedDetail(c, threadId, now).value;
      && ThreadKey(threadId) in r.entries
      && r.entries[ThreadKey(threadId)] == Entry(DetailData(d.(votes := CastVote(d.votes, vote, SignedInId(c, now)))), now)
    ensures CachedDetail(c, threadId, now).None? || SignedInId(c, now) == "" ==> SubCache(r, c)
    ensures SameOutside(c, r, {ThreadKey(threadId), ProfileKey})
  {
    ThreadKeyIsNotProfileKey(threadId);
    var key := ThreadKey(threadId);
    var t := Get(c, key, now);
    if t.value.Some? && t.value.value.DetailData? then
      var d := t.value.value.detailThread;
      var p := Get(t.cache, ProfileKey, now);
      var userId := if p.value.Some? && p.value.value.ProfileData? then p.value.value.user.id else "";
      if userId == "" then p.cache
      else Set(p.cache, key, DetailData(d.(votes := CastVote(d.votes, vote, userId))), now)
    else t.cache
  }

  /** The index of the first comment with the given id, or -1 (`find`). */
  function FindComment(comments: seq<Comment>, commentId: string): (r: int)
    ensures -1 <= r < |comments|
    ensures r >= 0 ==> comments[r].id == commentId
    ensures forall i :: 0 <= i < |comments| && (r == -1 || i < r) ==> comments[i].id != commentId
  {
    if |comments| == 0 then -1
    else if comments[0].id == commentId then 0
    else var k := FindComment(comments[1..], commentId); if k == -1 then -1 else k + 1
  }

  /** Casts the vote on the FIRST comment with the given id, as `find` returns
      only that one; every other comment is untouched. */
  function CastOnComment(comments: seq<Comment>, commentId: string, vote: Vote, user: string): (r: seq<Comment>)
    ensures |r| == |comments|
    ensures forall i :: 0 <= i < |comments| ==>
      r[i] == (if i == FindComment(comments, commentId)
               then comments[i].(votes := CastVote(comments[i].votes, vote, user))
               else comments[i])
  {
    if |comments| == 0 then []
    else if comments[0].id == commentId then
      [comments[0].(votes := CastVote(comments[0].votes, vote, user))] + comments[1..]
    else [comments[0]] + CastOnComment(comments[1..], commentId, vote, user)
  }

  /** The optimistic edit of the three comment-vote operations: the same rule,
      applied to the matching comment of the cached detail. The entry is
      re-stored whenever a user id is known, even if no comment matches. */
  function OptimisticCommentVote(
    c: Cache<Payload>, threadId: string, commentId: string, vote: Vote, now: int): (r: Cache<Payload>)
    ensures CachedDetail(c, threadId, now).Some? && SignedInId(c, now) != "" ==>
      var d := CachedDetail(c, threadId, now).value;
      && ThreadKey(threadId) in r.entries
      && r.entries[ThreadKey(threadId)] ==
         Entry(DetailData(d.(comments := CastOnComment(d.comments, commentId, vote, SignedInId(c, now)))), now)
    ensures CachedDetail(c, threadId, now).None? || SignedInId(c, now) == "" ==> SubCache(r, c)
    ensures SameOutside(c, r, {ThreadKey(threadId), ProfileKey})
  {
    ThreadKeyIsNotProfileKey(threadId);
    var key := ThreadKey(threadId);
    var t := Get(c, key, now);
    if t.value.Some? && t.value.value.DetailData? then
      var d := t.value.value.detailThread;
      var p := Get(t.cache, ProfileKey, now);
      var userId := if p.value.Some? && p.value.value.ProfileData? then p.value.value.user.id else "";
      if userId == "" then p.cache
      else Set(p.cache, key, DetailData(d.(comments := CastOnComment(d.comments, commentId, vote, userId))), now)
    else t.cache
  }

  /** The corrected optimistic edit of each operation: the vote operations cast
      the vote on the cached detail, every other operation edits nothing. */
  function OptimisticEdit(c: Cache<Payload>, op: Operation, now: int): Cache<Payload> {
    match op
    case VoteThread(id, vote, _) => OptimisticThreadVote(c, id, vote, now)
    case VoteComment(id, commentId, vote, _) => OptimisticCommentVote(c, id, commentId, vote, now)
    case _ => c
  }

  /** The optimistic edit of each operation as api.ts runs it: a vote only
      performs the two reads of `OptimisticEditAsWritten`, which can delete
      expired entries and never loses a live one. */
  function EditAsWritten(c: Cache<Payload>, op: Operation, now: int): (r: Cache<Payload>)
    ensures SubCache(r, c)
    ensures forall k :: Live(c, k, now) ==> k in r.entries
    ensures !op.VoteThread? && !op.VoteComment? ==> r == c
  {
    match op
    case VoteThread(id, _, _) => OptimisticEditAsWritten(c, id, now)
    case VoteComment(id, _, _, _) => OptimisticEditAsWritten(c, id, now)
    case _ => c
  }

  function RequestOf(op: Operation): Request<Payload> {
    if NeedsAuth(op) then WithAuth(op.response) else Plain(op.response)
  }

  /** What follows the optimistic edit: the coordinated request on the edited
      cache, then the invalidations, which run only when the request succeeded
      (a failed request throws before reaching them). */
  function Complete(cl: Client, op: Operation, edited: Cache<Payload>, now: int): (r: Step)
    ensures r.client.registry == cl.registry - {cl.baseUrl + Path(op)}
    ensures r.client.token == cl.token && r.client.baseUrl == cl.baseUrl
    ensures CacheKey(op) != "" && Live(edited, CacheKey(op), now) ==>
      r.result == Ok(edited.entries[CacheKey(op)].data) && r.client.cache == edited
    ensures CacheKey(op) != "" && !Live(edited, CacheKey(op), now) && r.result.Ok? ==>
      && CacheKey(op) in r.client.cache.entries
      && op.response.Reply?
      && r.client.cache.entries[CacheKey(op)] == Entry(r.result.value, op.response.receivedAt)
    ensures NeedsAuth(op) && !HasToken(cl.token) && CacheKey(op) == "" ==> r.result == Err(AuthMissing)
    ensures r.result.Err? && CacheKey(op) == "" ==> r.client.cache == edited
    ensures r.result.Err? ==> SubCache(r.client.cache, edited)
    ensures r.result.Err? ==> forall k :: Live(edited, k, now) ==> k in r.client.cache.entries
    ensures r.result.Ok? ==> forall k :: k in r.client.cache.entries ==> Survives(k, Invalidations(op))
    ensures r.result.Ok? && CacheKey(op) == "" ==>
      forall k :: k in edited.entries && Survives(k, Invalidations(op)) ==> k in r.client.cache.entries
  {
    var o := FetchWithAbort(edited, cl.registry, cl.token, cl.baseUrl + Path(op), RequestOf(op), CacheKey(op), now);
    var cache := if o.result.Ok? then InvalidateAll(o.cache, Invalidations(op)) else o.cache;
    Step(o.result, cl.(cache := cache, registry := o.registry))
  }

  /** One domain operation at time `now`, as api.ts runs it. Because the
      optimistic edit never applies, a failed call leaves no trace in the
      cache beyond the deletion of expired entries it read. */
  function Run(cl: Client, op: Operation, now: int): (r: Step)
    ensures r.client.registry == cl.registry - {cl.baseUrl + Path(op)}
    ensures r.client.token == cl.token && r.client.baseUrl == cl.baseUrl
    // cache-first reads
    ensures CacheKey(op) != "" && Live(cl.cache, CacheKey(op), now) ==>
      r.result == Ok(cl.cache.entries[CacheKey(op)].data) && r.client.cache == cl.cache
    ensures CacheKey(op) != "" && !Live(cl.cache, CacheKey(op), now) && r.result.Ok? ==>
      && CacheKey(op) in r.client.cache.entries
      && op.response.Reply?
      && r.client.cache.entries[CacheKey(op)] == Entry(r.result.value, op.response.receivedAt)
    // the token guard
    ensures NeedsAuth(op) && !HasToken(cl.token) && CacheKey(op) == "" ==> r.result == Err(AuthMissing)
    // failure adds nothing and loses no live entry
    ensures r.result.Err? ==> SubCache(r.client.cache, cl.cache)
    ensures r.result.Err? ==> forall k :: Live(cl.cache, k, now) ==> k in r.client.cache.entries
    // success drops every invalidated key family and no live entry besides
    ensures r.result.Ok? ==> forall k :: k in r.client.cache.entries ==> Survives(k, Invalidations(op))
    ensures r.result.Ok? && CacheKey(op) == "" ==>
      forall k :: Live(cl.cache, k, now) && Survives(k, Invalidations(op)) ==> k in r.client.cache.entries
  {
    Complete(cl, op, EditAsWritten(cl.cache, op, now), now)
  }

  /** One domain operation with the corrected optimistic edit: a failed call
      keeps whatever the edit did. */
  function RunIntended(cl: Client, op: Operation, now: int): (r: Step)
    ensures r.client.registry == cl.registry - {cl.baseUrl + Path(op)}
    ensures r.client.token == cl.token && r.client.baseUrl == cl.baseUrl
    ensures CacheKey(op) != "" && Live(cl.cache, CacheKey(op), now) ==>
      r.result == Ok(cl.cache.entries[CacheKey(op)].data) && r.client.cache == cl.cache
    ensures NeedsAuth(op) && !HasToken(cl.token) && CacheKey(op) == "" ==> r.result == Err(AuthMissing)
    ensures r.result.Err? && CacheKey(op) == "" ==> r.client.cache == OptimisticEdit(cl.cache, op, now)
    ensures r.result.Ok? ==> forall k :: k in r.client.cache.entries ==> Survives(k, Invalidations(op))
    ensures r.result.Ok? && CacheKey(op) == "" ==>
      forall k :: k in OptimisticEdit(cl.cache, op, now).entries && Survives(k, Invalidations(op)) ==>
        k in r.client.cache.entries
  {
    Complete(cl, op, OptimisticEdit(cl.cache, op, now), now)
  }

  /** `putAccessToken(token)`: stores the token and empties the cache, so no
      data cached for an earlier identity survives a token change. */
  function PutAccessToken(cl: Client, token: string): (r: Client)
    ensures r.token == Some(token)
    ensures r.cache.entries == map[]
    ensures r.registry == cl.registry
  {
    cl.(token := Some(token), cache := Clear(cl.cache))
  }

  /** `clearCache()`. */
  function ClearCache(cl: Client): (r: Client)
    ensures r.cache.entries == map[] && r.token == cl.token && r.registry == cl.registry
  {
    cl.(cache := Clear(cl.cache))
  }

  /** `abortAllRequests()`. */
  function AbortAllPending(cl: Client): (r: Client)
    ensures r.registry == {} && r.cache == cl.cache
  {
    cl.(registry := AbortAllRequests(cl.registry).registry)
  }

  /** After a token change every cached read misses, so the next read of any
      key goes to the network. */
  lemma TokenChangeForcesRefetch(cl: Client, token: string, op: Operation, now: int)
    requires CacheKey(op) != ""
    ensures !Live(PutAccessToken(cl, token).cache, CacheKey(op), now)
  {
  }

  /** With the corrected edit, a vote whose request fails keeps the optimistic
      edit in the cache: with a live detail and a signed-in id, the thread
      entry holds the cast votes. */
  lemma FailedVoteKeepsOptimisticEdit(cl: Client, threadId: string, vote: Vote, response: Response<Payload>, now: int)
    requires CachedDetail(cl.cache, threadId, now).Some? && SignedInId(cl.cache, now) != ""
    requires RunIntended(cl, VoteThread(threadId, vote, response), now).result.Err?
    ensures var c := RunIntended(cl, VoteThread(threadId, vote, response), now).client.cache;
      var d := CachedDetail(cl.cache, threadId, now).value;
      var user := SignedInId(cl.cache, now);
      && ThreadKey(threadId) in c.entries
      && c.entries[ThreadKey(threadId)].data == DetailData(d.(votes := CastVote(d.votes, vote, user)))
  {
  }

  /** As written, a vote whose request fails leaves the cached detail exactly
      as it was: the voter's choice is nowhere in the cache. */
  lemma FailedVoteLeavesDetailUnedited(cl: Client, threadId: string, vote: Vote, response: Response<Payload>, now: int)
    requires Live(cl.cache, ThreadKey(threadId), now)
    requires Run(cl, VoteThread(threadId, vote, response), now).result.Err?
    ensures var c := Run(cl, VoteThread(threadId, vote, response), now).client.cache;
      && ThreadKey(threadId) in c.entries
      && c.entries[ThreadKey(threadId)] == cl.cache.entries[ThreadKey(threadId)]
  {
  }

  /** After a successful thread vote neither the thread's detail nor the
      thread list is cached any more; every other entry is kept. */
  lemma SucceededVoteDropsThreadCaches(cl: Client, threadId: string, vote: Vote, response: Response<Payload>, now: int)
    requires Run(cl, VoteThread(threadId, vote, response), now).result.Ok?
    ensures var c := Run(cl, VoteThread(threadId, vote, response), now).client.cache;
      && ThreadKey(threadId) !in c.entries
      && ThreadsKey !in c.entries
  {
    var c := Run(cl, VoteThread(threadId, vote, response), now).client.cache;
    var prefixes := Invalidations(VoteThread(threadId, vote, response));
    assert StartsWith(ThreadKey(threadId), prefixes[0]);
    assert StartsWith(ThreadsKey, prefixes[1]);
  }

  /** The thread-list scenario: an empty cache, a successful reply; the threads
      come back and are cached, and a second call within the lifetime returns
      them again whatever the network would have said. */
  lemma SeeAllThreadsScenario(
    cl: Client, threads: seq<Thread>, at: int, later: int, second: Response<Payload>)
    requires cl.cache.entries == map[] && cl.cache.duration == DefaultDuration
    requires at <= later <= at + DefaultDuration
    ensures var first := Run(cl, SeeAllThreads(Reply("success", "ok", Some(ThreadsData(threads)), at)), at);
      && first.result == Ok(ThreadsData(threads))
      && first.client.cache.entries[ThreadsKey] == Entry(ThreadsData(threads), at)
      && Run(first.client, SeeAllThreads(second), later).result == Ok(ThreadsData(threads))
  {
  }

  /** `getOwnProfile` with a live cached profile succeeds even without a token. */
  lemma CachedProfileNeedsNoToken(cl: Client, response: Response<Payload>, now: int)
    requires Live(cl.cache, ProfileKey, now) && cl.token == None
    ensures Run(cl, GetOwnProfile(response), now).result == Ok(cl.cache.entries[ProfileKey].data)
  {
  }

  // ---------------------------------------------------------------------------
  // The optimistic edit as written in api.ts. It reads the `thread-{id}` entry
  // as if it were a DetailThread and `profile` as if it were a User, but the
  // cache holds the envelope objects `{detailThread}` and `{user}`. Reading
  // `.id` of the `{user}` object gives undefined, so the guard `if (userId)`
  // never passes: the only effect left is the lazy expiry of the two reads.
  // ---------------------------------------------------------------------------

  function OptimisticEditAsWritten(c: Cache<Payload>, threadId: string, now: int): (r: Cache<Payload>)
    ensures SubCache(r, c)
    ensures forall k :: Live(c, k, now) ==> k in r.entries
    ensures SameOutside(c, r, {ThreadKey(threadId), ProfileKey})
  {
    var t := Get(c, ThreadKey(threadId), now);
    if t.value.None? then t.cache
    else Get(t.cache, ProfileKey, now).cache
  }

  /** A cache holding a live detail of thread `t1` with no votes and the
      profile of user `u1`. */
  function SampleCache(): Cache<Payload> {
    var u := User("u1", "Ana", "ana@example.com", "");
    var d := DetailThread("t1", "Title", "Body", "general", "2024-01-01", None, Votes([], []), []);
    Cache(map["thread-t1" := Entry(DetailData(d), 0), "profile" := Entry(ProfileData(u), 0)], DefaultDuration)
  }

  /** On that cache an up-vote as written changes nothing, while reading the
      envelope fields records `u1` as an up-voter. */
  lemma OptimisticEditNeverApplies()
    ensures OptimisticEditAsWritten(SampleCache(), "t1", 0) == SampleCache()
    ensures var r := OptimisticThreadVote(SampleCache(), "t1", Up, 0);
      && ThreadKey("t1") in r.entries
      && r.entries[ThreadKey("t1")].data.DetailData?
      && r.entries[ThreadKey("t1")].data.detailThread.votes.upVotesBy == ["u1"]
  {
    var c := SampleCache();
    assert ThreadKey("t1") == "thread-t1";
    assert Get(c, "thread-t1", 0).cache == c;
    assert CachedDetail(c, "t1", 0).Some?;
    assert SignedInId(c, 0) == "u1";
  }
}

=== FILE: entities.dfy ===
/** The records the forum API returns and the reducers hold (the shapes of
    `src/types/index.ts`), with both vote lists grouped as one `Votes` value. */
module Entities {
  import opened Wrappers
  import opened VoteSets

  datatype User = User(id: string, name: string, email: string, avatar: string)

  datatype Thread = Thread(
    id: string,
    title: string,
    body: string,
    category: string,
    createdAt: string,
    ownerId: string,
    votes: Votes,
    totalComments: int)

  datatype Comment = Comment(
    id: string,
    content: string,
    createdAt: string,
    owner: User,
    votes: Votes)

  datatype DetailThread = DetailThread(
    id: string,
    title: string,
    body: string,
    category: string,
    createdAt: string,
    owner: Option<User>,
    votes: Votes,
    comments: seq<Comment>)

  datatype LeaderboardItem = LeaderboardItem(user: User, score: int)
}

=== FILE: home_page.dfy ===
/** The home page: the category filter buttons, the threads joined with their
    owners, and the category filter. */
module HomePage {
  import opened Wrappers
  import opened VoteSets
  import opened Entities

  function CategoriesOf(threads: seq<Thread>): (r: seq<string>)
    ensures |r| == |threads|
    ensures forall i :: 0 <= i < |threads| ==> r[i] == threads[i].category
  {
    seq(|threads|, i requires 0 <= i < |threads| => threads[i].category)
  }

  /** The index of the first occurrence of `x` in `xs`. */
  function FirstIndex(xs: seq<string>, x: string): (r: nat)
    requires x in xs
    ensures r < |xs| && xs[r] == x
    ensures forall j :: 0 <= j < r ==> xs[j] != x
    decreases |xs|
  {
    var init := xs[..|xs| - 1];
    assert xs == init + [xs[|xs| - 1]];
    if x in init then FirstIndex(init, x) else |xs| - 1
  }

  /** A value first seen in a prefix is first seen at the same index in the whole. */
  lemma FirstIndexOfPrefix(xs: seq<string>, x: string)
    requires |xs| > 0 && x in xs[..|xs| - 1]
    ensures FirstIndex(xs, x) == FirstIndex(xs[..|xs| - 1], x)
  {
  }

  /** `Array.from(new Set(xs))`: every value once, in order of first appearance. */
  function Distinct(xs: seq<string>): (r: seq<string>)
    ensures forall x :: x in r <==> x in xs
    ensures NoDup(r)
    ensures forall i, j :: 0 <= i < j < |r| ==> FirstIndex(xs, r[i]) < FirstIndex(xs, r[j])
    decreases |xs|
  {
    if |xs| == 0 then []
    else
      var init := Distinct(xs[..|xs| - 1]);
      var last := xs[|xs| - 1];
      assert xs == xs[..|xs| - 1] + [last];
      forall y | y in init ensures FirstIndex(xs, y) == FirstIndex(xs[..|xs| - 1], y) {
        FirstIndexOfPrefix(xs, y);
      }
      if last in xs[..|xs| - 1] then init
      else
        NoDupSnoc(init, last);
        var r := init + [last];
        assert forall i :: 0 <= i < |init| ==> r[i] == init[i];
        r
  }

  /** The insertion loop behind `new Set(xs)`: each value is kept at its first
      occurrence, tracked through the set of values seen so far. */
  method DistinctByScan(xs: seq<string>) returns (r: seq<string>)
    ensures r == Distinct(xs)
  {
    r := [];
    var seen: set<string> := {};
    for i := 0 to |xs|
      invariant r == Distinct(xs[..i])
      invariant seen == set x | x in xs[..i]
    {
      assert xs[..i + 1][..i] == xs[..i];
      if xs[i] !in seen {
        r := r + [xs[i]];
        seen := seen + {xs[i]};
      } else {
      }
      assert xs[..i + 1] == xs[..i] + [xs[i]];
    }
    assert xs[..|xs|] == xs;
  }

  /** The filter buttons: each category of the list once, first seen first. */
  function Categories(threads: seq<Thread>): (r: seq<string>)
    ensures NoDup(r)
    ensures forall c :: c in r <==> exists i :: 0 <= i < |threads| && threads[i].category == c
    ensures forall c :: c in r ==> c in CategoriesOf(threads)
    ensures forall i, j :: 0 <= i < j < |r| ==>
      FirstIndex(CategoriesOf(threads), r[i]) < FirstIndex(CategoriesOf(threads), r[j])
  {
    var r := Distinct(CategoriesOf(threads));
    assert forall c :: c in CategoriesOf(threads) <==> exists i :: 0 <= i < |threads| && threads[i].category == c;
    r
  }

  /** Index `i` holds the first user with the id. */
  predicate FirstWithId(users: seq<User>, i: int, id: string) {
    0 <= i < |users| && users[i].id == id && forall j :: 0 <= j < i ==> users[j].id != id
  }

  /** `users.find((user) => user.id === id)`: the first user with that id. */
  function FindUser(users: seq<User>, id: string): (r: Option<User>)
    ensures r.None? <==> forall i :: 0 <= i < |users| ==> users[i].id != id
    ensures r.Some? ==> exists i :: FirstWithId(users, i, id) && users[i] == r.value
    decreases |users|
  {
    if |users| == 0 then None
    else if users[0].id == id then (assert FirstWithId(users, 0, id); Some(users[0]))
    else
      var r := FindUser(users[1..], id);
      assert r.Some? ==> exists i :: FirstWithId(users, i, id) && users[i] == r.value by {
        if r.Some? {
          var k :| FirstWithId(users[1..], k, id) && users[1..][k] == r.value;
          assert FirstWithId(users, k + 1, id);
        }
      }
      assert r.None? ==> forall i :: 1 <= i < |users| ==> users[i].id == users[1..][i - 1].id;
      r
  }

  /** A thread as the list shows it: its owner, and the signed-in user's id or "". */
  datatype ThreadView = ThreadView(thread: Thread, threadOwner: Option<User>, authUser: string)

  function AuthId(authUser: Option<User>): string {
    if authUser.Some? then authUser.value.id else ""
  }

  /** `mergedThreads`: every thread, in order, joined with its owner. */
  function MergeThreads(threads: seq<Thread>, users: seq<User>, authUser: Option<User>): (r: seq<ThreadView>)
    ensures |r| == |threads|
    ensures forall i :: 0 <= i < |threads| ==> r[i].thread == threads[i]
    ensures forall i :: 0 <= i < |threads| ==> r[i].authUser == AuthId(authUser)
    // the owner shown is a known user with the thread's owner id, when there is one
    ensures forall i :: 0 <= i < |threads| ==>
      (r[i].threadOwner.Some? <==> exists k :: 0 <= k < |users| && users[k].id == threads[i].ownerId)
    ensures forall i :: 0 <= i < |threads| && r[i].threadOwner.Some? ==>
      r[i].threadOwner.value in users && r[i].threadOwner.value.id == threads[i].ownerId
    // and it is the first such user, as `find` returns
    ensures forall i :: 0 <= i < |threads| && r[i].threadOwner.Some? ==>
      exists k :: FirstWithId(users, k, threads[i].ownerId) && users[k] == r[i].threadOwner.value
  {
    seq(|threads|, i requires 0 <= i < |threads| =>
      ThreadView(threads[i], FindUser(users, threads[i].ownerId), AuthId(authUser)))
  }

  /** `filteredThreads`: everything for the empty filter, else the threads of
      that category, in order. */
  function FilterThreads(views: seq<ThreadView>, filter: string): (r: seq<ThreadView>)
    ensures filter == "" ==> r == views
    ensures filter != "" ==> forall v :: v in r <==> v in views && v.thread.category == filter
    ensures |r| <= |views|
    decreases |views|
  {
    if filter == "" || |views| == 0 then views
    else
      var rest := FilterThreads(views[1..], filter);
      assert forall v :: v in views <==> v == views[0] || v in views[1..];
      if views[0].thread.category == filter then [views[0]] + rest else rest
  }

  /** Filtering a concatenation filters each part and keeps them in order, so
      the kept threads appear in the order of the list. */
  lemma {:induction false} FilterAppend(a: seq<ThreadView>, b: seq<ThreadView>, filter: string)
    ensures FilterThreads(a + b, filter) == FilterThreads(a, filter) + FilterThreads(b, filter)
    decreases |a|
  {
    if filter != "" && |a| > 0 {
      assert (a + b)[0] == a[0];
      assert (a + b)[1..] == a[1..] + b;
      FilterAppend(a[1..], b, filter);
    } else if filter != "" {
      assert a + b == b;
    }
  }

  /** A category button: pressing the active one clears the filter; any other
      press makes the pressed category the filter. */
  function ToggleFilter(prev: string, category: string): (r: string)
    ensures r == "" <==> prev == category || category == ""
    ensures r != "" ==> r == category
  {
    if prev == category then "" else category
  }

  /** Pressing the same button twice: from that category's own filter it is
      active again, from any other filter it ends with no filter. */
  lemma ToggleTwice(prev: string, category: string)
    ensures ToggleFilter(ToggleFilter(prev, category), category) == (if prev == category then category else "")
  {
  }

  /** With distinct user ids, every thread whose owner is among the users shows
      that owner. */
  lemma OwnerOfUniqueIds(threads: seq<Thread>, users: seq<User>, authUser: Option<User>, i: int, k: int)
    requires forall a, b :: 0 <= a < b < |users| ==> users[a].id != users[b].id
    requires 0 <= i < |threads| && 0 <= k < |users| && users[k].id == threads[i].ownerId
    ensures MergeThreads(threads, users, authUser)[i].threadOwner == Some(users[k])
  {
    var r := MergeThreads(threads, users, authUser);
    var m :| FirstWithId(users, m, threads[i].ownerId) && users[m] == r[i].threadOwner.value;
    assert m == k;
  }

  /** Merging a new first thread (as `CREATE_THREAD` prepends one) adds its view
      in front and leaves the other views as they were. */
  lemma MergePrepend(t: Thread, threads: seq<Thread>, users: seq<User>, authUser: Option<User>)
    ensures MergeThreads([t] + threads, users, authUser) ==
      MergeThreads([t], users, authUser) + MergeThreads(threads, users, authUser)
  {
  }

  /** Every button shows at least one thread when pressed. */
  lemma EveryCategoryShowsSomething(threads: seq<Thread>, users: seq<User>, authUser: Option<User>, c: string)
    requires c in Categories(threads)
    ensures |FilterThreads(MergeThreads(threads, users, authUser), c)| >= 1
  {
    var views := MergeThreads(threads, users, authUser);
    var i :| 0 <= i < |threads| && threads[i].category == c;
    assert views[i] in views;
  }
}

=== FILE: js_text.dfy ===
/** The handful of JavaScript string built-ins the forum client relies on:
    `trim`, ASCII case mapping, `includes`, `indexOf`, `startsWith`,
    `substring` and `slice`. Strings are sequences of characters. */
module JsText {

  /** The ECMAScript WhiteSpace and LineTerminator code points, which
      `String.prototype.trim` removes from both ends. */
  predicate IsWhiteSpace(c: char) {
    || c == '\t' || c == '\n' || c == '\U{000B}' || c == '\U{000C}' || c == '\r'
    || c == ' ' || c == '\U{00A0}' || c == '\U{1680}'
    || ('\U{2000}' <= c <= '\U{200A}')
    || c == '\U{2028}' || c == '\U{2029}' || c == '\U{202F}' || c == '\U{205F}'
    || c == '\U{3000}' || c == '\U{FEFF}'
  }

  predicate AllWhiteSpace(s: string) {
    forall i :: 0 <= i < |s| ==> IsWhiteSpace(s[i])
  }

  /** `s` with its leading white space removed: a suffix of `s`. */
  function TrimStart(s: string): (r: string)
    ensures |r| <= |s| && r == s[|s| - |r|..]
    ensures AllWhiteSpace(s[..|s| - |r|])
    ensures |r| == 0 || !IsWhiteSpace(r[0])
  {
    if |s| > 0 && IsWhiteSpace(s[0]) then TrimStart(s[1..]) else s
  }

  /** `s` with its trailing white space removed: a prefix of `s`. */
  function TrimEnd(s: string): (r: string)
    ensures |r| <= |s| && r == s[..|r|]
    ensures AllWhiteSpace(s[|r|..])
    ensures |r| == 0 || !IsWhiteSpace(r[|r| - 1])
  {
    if |s| > 0 && IsWhiteSpace(s[|s| - 1]) then TrimEnd(s[..|s| - 1]) else s
  }

  /** `s.trim()`. The result is empty exactly when `s` is all white space. */
  function Trim(s: string): (r: string)
    ensures |r| <= |s|
    ensures |r| == 0 || (!IsWhiteSpace(r[0]) && !IsWhiteSpace(r[|r| - 1]))
    ensures r == "" <==> AllWhiteSpace(s)
  {
    var t := TrimStart(s);
    var r := TrimEnd(t);
    assert r == "" ==> AllWhiteSpace(s) by {
      if r == "" {
        assert s == s[..|s| - |t|] + t;
        assert t == t[|r|..];
      }
    }
    r
  }

  /** A field is blank when `value.trim()` is the empty string. */
  predicate IsBlank(s: string) {
    Trim(s) == ""
  }

  lemma {:induction false} TrimStartOfTrimmed(s: string)
    requires |s| == 0 || !IsWhiteSpace(s[0])
    ensures TrimStart(s) == s
  {
  }

  lemma {:induction false} TrimEndOfTrimmed(s: string)
    requires |s| == 0 || !IsWhiteSpace(s[|s| - 1])
    ensures TrimEnd(s) == s
  {
  }

  /** A string with no white space at either end is its own trim. */
  lemma TrimOfUnpadded(s: string)
    requires |s| == 0 || (!IsWhiteSpace(s[0]) && !IsWhiteSpace(s[|s| - 1]))
    ensures Trim(s) == s
  {
    TrimStartOfTrimmed(s);
    TrimEndOfTrimmed(s);
  }

  /** Trimming twice is trimming once. */
  lemma TrimIdempotent(s: string)
    ensures Trim(Trim(s)) == Trim(s)
  {
    var r := Trim(s);
    TrimStartOfTrimmed(r);
    TrimEndOfTrimmed(r);
  }

  function LowerChar(c: char): char {
    if 'A' <= c <= 'Z' then (c as int + 32) as char else c
  }

  function UpperChar(c: char): char {
    if 'a' <= c <= 'z' then (c as int - 32) as char else c
  }

  /** `s.toLowerCase()` restricted to the ASCII letters. */
  function ToLower(s: string): (r: string)
    ensures |r| == |s|
    ensures forall i :: 0 <= i < |s| ==> r[i] == LowerChar(s[i])
  {
    seq(|s|, i requires 0 <= i < |s| => LowerChar(s[i]))
  }

  /** `s.toUpperCase()` restricted to the ASCII letters. */
  function ToUpper(s: string): (r: string)
    ensures |r| == |s|
    ensures forall i :: 0 <= i < |s| ==> r[i] == UpperChar(s[i])
  {
    seq(|s|, i requires 0 <= i < |s| => UpperChar(s[i]))
  }

  /** Lower-casing forgets an earlier upper-casing, so case-insensitive tests
      see the same text either way. */
  lemma LowerOfUpper(s: string)
    ensures ToLower(ToUpper(s)) == ToLower(s)
  {
  }

  predicate OccursAt(s: string, sub: string, i: int) {
    0 <= i && i + |sub| <= |s| && s[i..i + |sub|] == sub
  }

  /** `s.includes(sub)`. */
  predicate Includes(s: string, sub: string) {
    exists i :: 0 <= i <= |s| && OccursAt(s, sub, i)
  }

  /** `s.indexOf(sub, k)`: the first occurrence at or after `k`, or -1. */
  function IndexOfFrom(s: string, sub: string, k: nat): (r: int)
    decreases |s| - k
    ensures r == -1 || (k <= r && OccursAt(s, sub, r))
    ensures r == -1 ==> forall j :: k <= j ==> !OccursAt(s, sub, j)
    ensures r >= 0 ==> forall j :: k <= j < r ==> !OccursAt(s, sub, j)
  {
    if k + |sub| > |s| then -1
    else if s[k..k + |sub|] == sub then k
    else IndexOfFrom(s, sub, k + 1)
  }

  /** `s.indexOf(sub)`: the first occurrence, or -1 when there is none. */
  function IndexOf(s: string, sub: string): (r: int)
    ensures r == -1 <==> !Includes(s, sub)
    ensures r != -1 ==> OccursAt(s, sub, r)
    ensures r != -1 ==> forall j :: 0 <= j < r ==> !OccursAt(s, sub, j)
  {
    IndexOfFrom(s, sub, 0)
  }

  /** `s.startsWith(prefix)`, and the `^literal` regular expressions of the API client. */
  predicate StartsWith(s: string, prefix: string) {
    |prefix| <= |s| && s[..|prefix|] == prefix
  }

  function Clamp(x: int, len: nat): (r: nat)
    ensures r <= len
  {
    if x < 0 then 0 else if x > len then len else x
  }

  /** `s.substring(a, b)`: both ends clamped to the string, swapped when out of order. */
  function Substring(s: string, a: int, b: int): string {
    var i := Clamp(a, |s|);
    var j := Clamp(b, |s|);
    if i <= j then s[i..j] else s[j..i]
  }

  /** `s.slice(a, b)` for non-negative bounds: clamped, empty when out of order. */
  function Slice(s: string, a: nat, b: nat): string {
    var i := Clamp(a, |s|);
    var j := Clamp(b, |s|);
    if i <= j then s[i..j] else ""
  }
}

=== FILE: login_input.dfy ===
/** The login form's submit guard and its email-format hint. `Submit` is
    `handleSubmit` once it runs: the browser's own validation of the
    `type="email"` and `required` inputs, which can stop the form before the
    handler and strips the spaces around an email, is not part of this model. */
module LoginInput {
  import opened JsText

  datatype LoginPayload = LoginPayload(email: string, password: string, name: string)

  /** A submit either sets the form's local error, or clears it (sets it to
      null) and calls `login`. */
  datatype Submission = Rejected(localError: string) | LoggedIn(payload: LoginPayload)

  const EmailEmpty := "Email tidak boleh kosong."
  const PasswordEmpty := "Password tidak boleh kosong."

  /** `handleSubmit`: the email is checked first, then the password; the
      payload carries the fields as typed, untrimmed, with an empty name. */
  function Submit(email: string, password: string): (r: Submission)
    ensures r.LoggedIn? <==> !IsBlank(email) && !IsBlank(password)
    ensures IsBlank(email) ==> r == Rejected(EmailEmpty)
    ensures !IsBlank(email) && IsBlank(password) ==> r == Rejected(PasswordEmpty)
    ensures r.LoggedIn? ==> r.payload.email == email && r.payload.password == password && r.payload.name == ""
  {
    if IsBlank(email) then Rejected(EmailEmpty)
    else if IsBlank(password) then Rejected(PasswordEmpty)
    else LoggedIn(LoginPayload(email, password, ""))
  }

  /** "Format email tidak valid": shown for a typed email longer than three
      characters without an `@`. */
  predicate ShowEmailFormatHint(email: string) {
    email != "" && !Includes(email, "@") && |email| > 3
  }

  /** Given only white space as email, `handleSubmit` rejects it as empty;
      given a padded real email, it hands it to `login` untrimmed. */
  lemma SpacesAreKept()
    ensures Submit("   ", "secret") == Rejected(EmailEmpty)
    ensures Submit(" a@b.co ", "secret") == LoggedIn(LoginPayload(" a@b.co ", "secret", ""))
  {
    assert AllWhiteSpace("   ");
    assert !AllWhiteSpace(" a@b.co ") by { assert !IsWhiteSpace(" a@b.co "[1]); }
    assert !AllWhiteSpace("secret") by { assert !IsWhiteSpace("secret"[0]); }
  }

  /** The format hint does not gate `handleSubmit`: given a hinted email, the
      handler still calls `login`. */
  lemma HintDoesNotBlock()
    ensures ShowEmailFormatHint("budi") && Submit("budi", "secret").LoggedIn?
  {
    var e := "budi";
    forall i | 0 <= i <= |e| ensures !OccursAt(e, "@", i) {
      if i + 1 <= |e| { assert e[i..i + 1][0] == e[i]; }
    }
    assert !AllWhiteSpace(e) by { assert !IsWhiteSpace(e[0]); }
    assert !AllWhiteSpace("secret") by { assert !IsWhiteSpace("secret"[0]); }
  }

  /** The submit decides on the trimmed fields: trimming both fields first
      gives the same rejection, or the same login with the trimmed values. */
  lemma DecidesOnTrimmedFields(email: string, password: string)
    ensures Submit(Trim(email), Trim(password)) ==
      match Submit(email, password)
      case Rejected(m) => Rejected(m)
      case LoggedIn(_) => LoggedIn(LoginPayload(Trim(email), Trim(password), ""))
  {
    TrimIdempotent(email);
    TrimIdempotent(password);
  }

  /** For every email showing the hint, `handleSubmit` calls `login` exactly
      when neither field is blank: the handler never consults the hint. A
      blank email of four spaces shows the hint and the handler rejects it as
      empty. */
  lemma HintIsIndependent(email: string, password: string)
    ensures ShowEmailFormatHint(email) ==>
      (Submit(email, password).LoggedIn? <==> !IsBlank(email) && !IsBlank(password))
    ensures ShowEmailFormatHint("    ") && Submit("    ", password) == Rejected(EmailEmpty)
  {
    var e := "    ";
    forall i | 0 <= i <= |e| ensures !OccursAt(e, "@", i) {
      if i + 1 <= |e| { assert e[i..i + 1][0] == e[i]; }
    }
    assert AllWhiteSpace(e);
  }
}

=== FILE: navbar.dfy ===
/** The top navigation bar: the menu with its keyboard shortcuts, the
    highlighted shortcut letter in each title, and which link is active. */
module Navbar {
  import opened Wrappers
  import opened JsText

  /** The three pages the menu links to; their paths live in a route table
      that is not part of this model. */
  datatype Endpoint = Home | Login | Register

  datatype MenuItem = MenuItem(title: string, link: Endpoint, key: string)

  /** `useNavbarMenu`: Indonesian titles for the locale "id", English otherwise. */
  function NavbarMenu(locale: string): (r: seq<MenuItem>)
    ensures |r| == 3
    ensures r[0].link == Home && r[1].link == Login && r[2].link == Register
    ensures r[0].key == "h" && r[1].key == "l" && r[2].key == "r"
    ensures r[0].title == (if locale == "id" then "Beranda" else "Home")
    ensures r[1].title == "Login"
    ensures r[2].title == (if locale == "id" then "Daftar" else "Register")
  {
    [ MenuItem(if locale == "id" then "Beranda" else "Home", Home, "h"),
      MenuItem("Login", Login, "l"),
      MenuItem(if locale == "id" then "Daftar" else "Register", Register, "r") ]
  }

  /** The title split around the shortcut: `highlighted` is the first matched
      character; a missing match gives `None` for both optional parts. */
  datatype Parts = Parts(before: string, highlighted: Option<char>, after: Option<string>)

  /** `getHighlightedParts`: finds the key in the title ignoring case. */
  function HighlightedParts(title: string, key: string): (r: Parts)
    ensures !Includes(ToLower(title), ToLower(key)) ==> r == Parts(title, None, None)
    ensures Includes(ToLower(title), ToLower(key)) ==> r.after.Some?
    // on a match with a non-empty key, the three parts put the title back together
    ensures Includes(ToLower(title), ToLower(key)) && key != "" ==>
      r.highlighted.Some? && r.before + [r.highlighted.value] + r.after.value == title
    ensures r.highlighted.Some? ==>
      var i := |r.before|;
      i < |title| && title[..i] == r.before && r.highlighted.value == title[i]
    ensures r.highlighted.Some? && key != "" ==> LowerChar(title[|r.before|]) == LowerChar(key[0])
    // the split is at the first case-insensitive occurrence
    ensures Includes(ToLower(title), ToLower(key)) ==>
      && OccursAt(ToLower(title), ToLower(key), |r.before|)
      && forall j :: 0 <= j < |r.before| ==> !OccursAt(ToLower(title), ToLower(key), j)
  {
    var index := IndexOf(ToLower(title), ToLower(key));
    if index == -1 then Parts(title, None, None)
    else
      Parts(Slice(title, 0, index),
            if index < |title| then Some(title[index]) else None,
            Some(Slice(title, index + 1, |title|)))
  }

  /** The English titles all contain their shortcut letter; the Indonesian
      "Beranda" does not contain "h" and shows no highlight. */
  lemma MenuTitlesShowShortcut(i: int)
    requires 0 <= i < 3
    ensures HighlightedParts(NavbarMenu("en")[i].title, NavbarMenu("en")[i].key).highlighted.Some?
  {
    var item := NavbarMenu("en")[i];
    var t := ToLower(item.title);
    assert t[..1] == item.key by { assert t[0] == LowerChar(item.title[0]); }
    assert OccursAt(t, item.key, 0);
  }

  lemma BerandaShowsNoShortcut()
    ensures HighlightedParts(NavbarMenu("id")[0].title, "h") == Parts("Beranda", None, None)
  {
    var t := ToLower("Beranda");
    forall i | 0 <= i < |t| ensures t[i] != 'h' {
      assert t[i] == LowerChar("Beranda"[i]);
    }
    AbsentLetter(t, 'h');
    assert ToLower("h") == "h";
  }

  /** A letter that appears nowhere in `s` is not found in it. */
  lemma AbsentLetter(s: string, c: char)
    requires forall i :: 0 <= i < |s| ==> s[i] != c
    ensures !Includes(s, [c])
  {
    forall i | 0 <= i <= |s| ensures !OccursAt(s, [c], i) {
      if i + 1 <= |s| { assert s[i..i + 1][0] == s[i]; }
    }
  }

  lemma EmptyTitleHighlightsNothing()
    ensures HighlightedParts("", "") == Parts("", None, Some(""))
  {
    assert OccursAt("", "", 0);
  }

  /** `isActive`: the link's own path, or a path below it; the root only
      matches itself. */
  predicate IsActive(href: string, currentPath: string) {
    currentPath == href || (href != "/" && StartsWith(currentPath, href + "/"))
  }

  /** Activity respects path segments: "/thread" is not active on "/threads",
      "/threads" is on "/threads/1", and "/" is not on "/threads". */
  lemma ActiveBySegment()
    ensures !IsActive("/thread", "/threads")
    ensures IsActive("/threads", "/threads/1")
    ensures !IsActive("/", "/threads")
  {
    assert "/threads"[..8] != "/thread/" by { assert "/threads"[..8][7] != "/thread/"[7]; }
  }

  /** A link other than the root is active exactly on its own path and on the
      paths one or more segments below it; the root is active only on itself. */
  lemma ActiveIffBelow(href: string, p: string)
    ensures href != "/" ==> (IsActive(href, p) <==> p == href || exists rest :: p == href + "/" + rest)
    ensures IsActive("/", p) <==> p == "/"
  {
    if href != "/" && StartsWith(p, href + "/") {
      var rest := p[|href| + 1..];
      assert p == p[..|href| + 1] + rest;
    }
    if href != "/" && exists rest :: p == href + "/" + rest {
      var rest :| p == href + "/" + rest;
      assert p[..|href + "/"|] == href + "/";
    }
  }

  /** Descending below an active link keeps it active. */
  lemma ActiveBelowActive(href: string, p: string, segment: string)
    requires href != "/" && IsActive(href, p)
    ensures IsActive(href, p + "/" + segment)
  {
    var q := p + "/" + segment;
    assert q[..|href + "/"|] == href + "/" by {
      if p == href {
        assert q == href + "/" + segment;
      } else {
        assert q[..|href + "/"|] == p[..|href + "/"|];
      }
    }
  }

  // ---- keyboard shortcuts ----

  /** The element a key press was aimed at. */
  datatype Target = Target(tagName: string, isContentEditable: bool)

  predicate IsTyping(t: Target) {
    t.tagName == "INPUT" || t.tagName == "TEXTAREA" || t.isContentEditable
  }

  /** `menu.find((item) => item.key === key)`: the first item with the key. */
  function FindByKey(menu: seq<MenuItem>, key: string): (r: Option<MenuItem>)
    ensures r.None? <==> forall i :: 0 <= i < |menu| ==> menu[i].key != key
    ensures r.Some? ==> r.value in menu && r.value.key == key
    ensures r.Some? ==> exists i :: 0 <= i < |menu| && menu[i] == r.value && forall j :: 0 <= j < i ==> menu[j].key != key
    decreases |menu|
  {
    if |menu| == 0 then None
    else if menu[0].key == key then Some(menu[0])
    else
      var r := FindByKey(menu[1..], key);
      assert forall i :: 1 <= i < |menu| ==> menu[i] == menu[1..][i - 1];
      assert r.Some? ==> exists i :: 0 <= i < |menu| && menu[i] == r.value && forall j :: 0 <= j < i ==> menu[j].key != key by {
        if r.Some? {
          var k :| 0 <= k < |menu[1..]| && menu[1..][k] == r.value && forall j :: 0 <= j < k ==> menu[1..][j].key != key;
          assert menu[k + 1] == r.value;
        }
      }
      r
  }

  /** `handleKeydown`: where the app navigates, if anywhere. Typing in a field
      never navigates. */
  function HandleKeydown(target: Target, key: string, menu: seq<MenuItem>): (r: Option<Endpoint>)
    ensures IsTyping(target) ==> r.None?
    ensures !IsTyping(target) ==>
      (r.Some? <==> exists i :: 0 <= i < |menu| && menu[i].key == ToLower(key))
    ensures r.Some? ==> exists i :: 0 <= i < |menu| && menu[i].key == ToLower(key) && menu[i].link == r.value
  {
    if IsTyping(target) then None
    else
      var m := FindByKey(menu, ToLower(key));
      if m.Some? then Some(m.value.link) else None
  }

  /** Outside a field, each page is one letter away, in either case. */
  lemma ShortcutsReachEveryPage(locale: string, target: Target)
    requires !IsTyping(target)
    ensures HandleKeydown(target, "h", NavbarMenu(locale)) == Some(Home)
    ensures HandleKeydown(target, "L", NavbarMenu(locale)) == Some(Login)
    ensures HandleKeydown(target, "r", NavbarMenu(locale)) == Some(Register)
  {
    var m := NavbarMenu(locale);
    assert ToLower("h") == "h" && ToLower("L") == "l" && ToLower("r") == "r";
    assert FindByKey(m, "h") == Some(m[0]);
    assert m[1..][0] == m[1] && m[1..][1..][0] == m[2];
    assert FindByKey(m[1..], "l") == Some(m[1]);
    assert FindByKey(m, "l") == Some(m[1]);
    assert FindByKey(m[1..][1..], "r") == Some(m[2]);
    assert FindByKey(m, "r") == Some(m[2]);
  }

  /** A shortcut letter works the same in either case. */
  lemma ShortcutIgnoresCase(target: Target, key: string, menu: seq<MenuItem>)
    ensures HandleKeydown(target, ToUpper(key), menu) == HandleKeydown(target, key, menu)
  {
    LowerOfUpper(key);
  }
}

=== FILE: register_input.dfy ===
/** The register form: its own five-criterion meter, the submit guards, and
    when the submit button is enabled. */
module RegisterInput {
  import opened Wrappers
  import RegisterPage

  datatype Level = Weak | Medium | Strong

  /** `/[!@#$%^&*(),.?":{}|<>]/`. */
  predicate IsSpecial(c: char) {
    c in "!@#$%^&*(),.?\":{}|<>"
  }

  predicate HasSpecial(s: string) { exists i :: 0 <= i < |s| && IsSpecial(s[i]) }

  /** How many of the five criteria the password meets. */
  function Score(password: string): (r: nat)
    ensures r <= 5
  {
    RegisterPage.Point(RegisterPage.HasLower(password)) + RegisterPage.Point(RegisterPage.HasUpper(password))
    + RegisterPage.Point(RegisterPage.HasDigit(password)) + RegisterPage.Point(HasSpecial(password))
    + RegisterPage.Point(|password| >= 8)
  }

  /** `checkPasswordStrength`: no level for an empty password; at most two
      criteria is weak, three or four medium, all five strong. */
  function CheckPasswordStrength(password: string): (r: Option<Level>)
    ensures r.None? <==> password == ""
    ensures r == Some(Strong) <==> password != "" && Score(password) == 5
    ensures r == Some(Weak) <==> password != "" && Score(password) <= 2
  {
    if password == "" then None
    else if Score(password) <= 2 then Some(Weak)
    else if Score(password) <= 4 then Some(Medium)
    else Some(Strong)
  }

  function StrengthColor(level: Option<Level>): string {
    match level
    case None => "bg-gray-200"
    case Some(Weak) => "bg-red-500"
    case Some(Medium) => "bg-yellow-500"
    case Some(Strong) => "bg-green-500"
  }

  function StrengthText(level: Option<Level>): string {
    match level
    case None => ""
    case Some(Weak) => "Lemah"
    case Some(Medium) => "Sedang"
    case Some(Strong) => "Kuat"
  }

  /** Each special character is outside the letters and digits. */
  lemma SpecialIsOther(s: string)
    requires HasSpecial(s)
    ensures RegisterPage.HasOther(s)
  {
    var i :| 0 <= i < |s| && IsSpecial(s[i]);
    assert !RegisterPage.IsUpperAscii(s[i]) && !RegisterPage.IsLowerAscii(s[i]) && !RegisterPage.IsDigit(s[i]);
  }

  /** What the form calls strong, the page's meter shows at 83% or more. */
  lemma StrongHereIsStrongThere(password: string)
    requires CheckPasswordStrength(password) == Some(Strong)
    ensures RegisterPage.CheckPasswordStrength(password).strength >= 83
  {
    SpecialIsOther(password);
    assert RegisterPage.Score(password) >= 5;
  }

  /** The two meters can disagree: a long lower-case password with a hyphen is
      weak here and medium on the page. */
  lemma MetersDisagree()
    ensures CheckPasswordStrength("abcdefgh-") == Some(Weak)
    ensures RegisterPage.CheckPasswordStrength("abcdefgh-").hint == RegisterPage.Medium
  {
    var p := "abcdefgh-";
    assert RegisterPage.IsLowerAscii(p[0]);
    assert !RegisterPage.IsUpperAscii(p[8]) && !RegisterPage.IsLowerAscii(p[8]) && !RegisterPage.IsDigit(p[8]);
    assert forall i :: 0 <= i < |p| ==> !RegisterPage.IsUpperAscii(p[i]) && !RegisterPage.IsDigit(p[i]) && !IsSpecial(p[i]);
  }

  // ---- submitting ----

  datatype Form = Form(name: string, email: string, password: string, confirmPassword: string)

  datatype Registration = Registration(name: string, email: string, password: string)

  /** What a submit does: the alerts it raises, in order, and the registration
      it hands to `register`, if any. */
  datatype Submission = Submission(alerts: seq<string>, registered: Option<Registration>)

  const MissingFields := "Semua field harus diisi."
  const PasswordsDiffer := "Password dan konfirmasi password tidak cocok."
  const EmailTaken := "Email sudah digunakan. Silakan gunakan email lain."
  const Registered := "Registrasi berhasil!"

  predicate PasswordsMatch(f: Form) { f.password == f.confirmPassword }

  /** The "Password tidak cocok" line under the confirmation field. */
  predicate ShowPasswordMatchError(f: Form) { f.confirmPassword != "" && !PasswordsMatch(f) }

  /** All three required fields are filled in. */
  predicate Complete(f: Form) { f.name != "" && f.email != "" && f.password != "" }

  function RegistrationOf(f: Form): Registration { Registration(f.name, f.email, f.password) }

  /** `handleSubmit` as written: a taken email raises its alert and the form
      registers anyway. */
  function SubmitAsWritten(f: Form, emailExists: bool): (r: Submission)
    ensures r.registered.Some? <==> f.name != "" && f.email != "" && f.password != "" && PasswordsMatch(f)
    ensures r.registered.Some? ==> r.registered.value == RegistrationOf(f)
    ensures f.name == "" || f.email == "" || f.password == "" ==> r.alerts == [MissingFields]
    ensures Complete(f) && !PasswordsMatch(f) ==> r.alerts == [PasswordsDiffer]
    ensures Complete(f) && PasswordsMatch(f) ==>
      r.alerts == (if emailExists then [EmailTaken, Registered] else [Registered])
  {
    if f.name == "" || f.email == "" || f.password == "" then Submission([MissingFields], None)
    else if !PasswordsMatch(f) then Submission([PasswordsDiffer], None)
    else if emailExists then Submission([EmailTaken, Registered], Some(RegistrationOf(f)))
    else Submission([Registered], Some(RegistrationOf(f)))
  }

  /** `handleSubmit` with the early return its comment announces: a taken email
      stops the submit. */
  function Submit(f: Form, emailExists: bool): (r: Submission)
    ensures r.registered.Some? <==> f.name != "" && f.email != "" && f.password != "" && PasswordsMatch(f) && !emailExists
    ensures r.registered.Some? ==> r.registered.value == RegistrationOf(f) && r.alerts == [Registered]
    ensures f.name == "" || f.email == "" || f.password == "" ==> r.alerts == [MissingFields]
    ensures r.registered.None? ==> |r.alerts| == 1 && r.alerts[0] != Registered
    ensures Complete(f) && !PasswordsMatch(f) ==> r.alerts == [PasswordsDiffer]
    ensures Complete(f) && PasswordsMatch(f) && emailExists ==> r.alerts == [EmailTaken]
  {
    if f.name == "" || f.email == "" || f.password == "" then Submission([MissingFields], None)
    else if !PasswordsMatch(f) then Submission([PasswordsDiffer], None)
    else if emailExists then Submission([EmailTaken], None)
    else Submission([Registered], Some(RegistrationOf(f)))
  }

  /** The submit button's `disabled` attribute. */
  predicate SubmitDisabled(f: Form, disabled: bool, emailExists: bool, isCheckingEmail: bool) {
    disabled || f.name == "" || f.email == "" || f.password == "" || !PasswordsMatch(f) || emailExists || isCheckingEmail
  }

  /** A taken email still registers, with both alerts. */
  lemma TakenEmailStillRegisters()
    ensures var f := Form("Budi", "budi@example.com", "rahasia", "rahasia");
      SubmitAsWritten(f, true) == Submission([EmailTaken, Registered], Some(RegistrationOf(f)))
  {
  }

  /** Whenever the button is enabled, the written and corrected handlers agree
      and, once `handleSubmit` runs, both call `register` with the form. */
  lemma EnabledButtonRegisters(f: Form, disabled: bool, emailExists: bool, isCheckingEmail: bool)
    requires !SubmitDisabled(f, disabled, emailExists, isCheckingEmail)
    ensures SubmitAsWritten(f, emailExists) == Submit(f, emailExists)
    ensures Submit(f, emailExists).registered == Some(RegistrationOf(f))
  {
  }

  /** The written and corrected submits differ exactly on a complete, matching
      form whose email is taken; there the written one also registers and adds
      the success alert after the taken-email one. */
  lemma WrittenDiffersOnlyOnTakenEmail(f: Form, emailExists: bool)
    ensures SubmitAsWritten(f, emailExists) != Submit(f, emailExists) <==>
      Complete(f) && PasswordsMatch(f) && emailExists
    ensures SubmitAsWritten(f, emailExists) != Submit(f, emailExists) ==>
      && SubmitAsWritten(f, emailExists).alerts == Submit(f, emailExists).alerts + [Registered]
      && SubmitAsWritten(f, emailExists).registered == Some(RegistrationOf(f))
      && Submit(f, emailExists).registered.None?
  {
  }
}

=== FILE: register_page.dfy ===
/** The register page: its six-criterion password meter and the way it turns
    a failed registration's message into a field error. */
module RegisterPage {
  import opened JsText

  predicate IsUpperAscii(c: char) { 'A' <= c <= 'Z' }
  predicate IsLowerAscii(c: char) { 'a' <= c <= 'z' }
  predicate IsDigit(c: char) { '0' <= c <= '9' }

  /** `/[X]/.test(s)` for a character class `X`. */
  predicate HasUpper(s: string) { exists i :: 0 <= i < |s| && IsUpperAscii(s[i]) }
  predicate HasLower(s: string) { exists i :: 0 <= i < |s| && IsLowerAscii(s[i]) }
  predicate HasDigit(s: string) { exists i :: 0 <= i < |s| && IsDigit(s[i]) }
  predicate HasOther(s: string) {
    exists i :: 0 <= i < |s| && !IsUpperAscii(s[i]) && !IsLowerAscii(s[i]) && !IsDigit(s[i])
  }

  function Point(b: bool): nat { if b then 1 else 0 }

  /** How many of the six criteria the password meets. */
  function Score(password: string): (r: nat)
    ensures r <= 6
  {
    Point(|password| >= 8) + Point(|password| >= 12)
    + Point(HasUpper(password)) + Point(HasLower(password))
    + Point(HasDigit(password)) + Point(HasOther(password))
  }

  datatype Meter = Meter(strength: nat, hint: string)

  const VeryWeak := "Sangat lemah"
  const Weak := "Lemah"
  const Medium := "Sedang"
  const Strong := "Kuat"
  const VeryStrong := "Sangat kuat"

  /** The hint for a percentage: bands at 30, 50, 70 and 90. */
  function Hint(strength: nat): string {
    if strength < 30 then VeryWeak
    else if strength < 50 then Weak
    else if strength < 70 then Medium
    else if strength < 90 then Strong
    else VeryStrong
  }

  /** `getStrengthColor`: the same bands as the hint. */
  function StrengthColor(strength: nat): string {
    if strength < 30 then "bg-red-500"
    else if strength < 50 then "bg-orange-500"
    else if strength < 70 then "bg-yellow-500"
    else if strength < 90 then "bg-blue-500"
    else "bg-green-500"
  }

  /** `checkPasswordStrength`: an empty password clears the meter; otherwise the
      score becomes a percentage, rounded down and capped at 100. */
  function CheckPasswordStrength(password: string): (r: Meter)
    ensures password == "" ==> r == Meter(0, "")
    ensures r.strength <= 100
    ensures password != "" ==> r.strength * 6 <= Score(password) * 100 < (r.strength + 1) * 6
    ensures password != "" ==> r.hint == Hint(r.strength)
  {
    if password == "" then Meter(0, "")
    else
      var s := if Score(password) * 100 / 6 < 100 then Score(password) * 100 / 6 else 100;
      Meter(s, Hint(s))
  }

  /** Every character falls in one of the four classes, so a non-empty password
      scores at least one point and never shows 0. */
  lemma NonEmptyScoresSomething(password: string)
    requires password != ""
    ensures Score(password) >= 1
    ensures CheckPasswordStrength(password).strength >= 16
  {
    var c := password[0];
    if IsUpperAscii(c) { assert HasUpper(password); }
    else if IsLowerAscii(c) { assert HasLower(password); }
    else if IsDigit(c) { assert HasDigit(password); }
    else { assert HasOther(password); }
  }

  /** The percentages the meter can show. */
  lemma StrengthSteps(password: string)
    ensures CheckPasswordStrength(password).strength in {0, 16, 33, 50, 66, 83, 100}
  {
  }

  /** Only a password meeting all six criteria is called very strong. */
  lemma VeryStrongNeedsAllSix(password: string)
    requires password != ""
    ensures CheckPasswordStrength(password).hint == VeryStrong <==> Score(password) == 6
  {
  }

  /** Typing one more character never lowers the meter. */
  lemma StrengthMonotone(password: string, c: char)
    requires password != ""
    ensures CheckPasswordStrength(password + [c]).strength >= CheckPasswordStrength(password).strength
  {
    var p := password + [c];
    assert forall i :: 0 <= i < |password| ==> p[i] == password[i];
    if HasUpper(password) { var i :| 0 <= i < |password| && IsUpperAscii(password[i]); assert IsUpperAscii(p[i]); }
    if HasLower(password) { var i :| 0 <= i < |password| && IsLowerAscii(password[i]); assert IsLowerAscii(p[i]); }
    if HasDigit(password) { var i :| 0 <= i < |password| && IsDigit(password[i]); assert IsDigit(p[i]); }
    if HasOther(password) {
      var i :| 0 <= i < |password| && !IsUpperAscii(password[i]) && !IsLowerAscii(password[i]) && !IsDigit(password[i]);
      assert p[i] == password[i];
    }
    assert Score(p) >= Score(password);
  }

  /** The hint and the bar colour always name the same band. */
  lemma HintMatchesColor(strength: nat)
    ensures Hint(strength) == VeryWeak <==> StrengthColor(strength) == "bg-red-500"
    ensures Hint(strength) == Weak <==> StrengthColor(strength) == "bg-orange-500"
    ensures Hint(strength) == Medium <==> StrengthColor(strength) == "bg-yellow-500"
    ensures Hint(strength) == Strong <==> StrengthColor(strength) == "bg-blue-500"
    ensures Hint(strength) == VeryStrong <==> StrengthColor(strength) == "bg-green-500"
  {
  }

  // ---- registration errors ----

  /** The form field a failed registration's message is shown under. */
  datatype FieldError = EmailError(text: string) | PasswordError(text: string)
                      | NameError(text: string) | GeneralError(text: string)

  const EmailTaken := "Email sudah digunakan. Silakan gunakan email lain."
  const GeneralFallback := "Terjadi kesalahan. Silakan coba lagi."

  predicate Mentions(message: string, word: string) {
    Includes(ToLower(message), word)
  }

  predicate SaysEmailTaken(message: string) {
    Mentions(message, "email")
    && (Mentions(message, "exists") || Mentions(message, "taken") || Mentions(message, "already in use"))
  }

  /** The error `onRegister` shows for a rejected registration. A missing
      message is the empty string. */
  function ClassifyRegisterError(message: string): (r: FieldError)
    ensures r.EmailError? <==> SaysEmailTaken(message)
    ensures r.EmailError? ==> r.text == EmailTaken
    ensures r.PasswordError? <==> !SaysEmailTaken(message) && Mentions(message, "password")
    ensures r.NameError? <==> !SaysEmailTaken(message) && !Mentions(message, "password") && Mentions(message, "name")
    // except for the fixed email text, a message is shown as the server wrote it
    ensures !r.EmailError? && message != "" ==> r.text == message
    ensures message == "" ==> r == GeneralError(GeneralFallback)
  {
    if SaysEmailTaken(message) then EmailError(EmailTaken)
    else if Mentions(message, "password") then PasswordError(if message == "" then "Password tidak memenuhi persyaratan keamanan" else message)
    else if Mentions(message, "name") then NameError(if message == "" then "Nama tidak valid" else message)
    else GeneralError(if message == "" then GeneralFallback else message)
  }

  /** The field chosen ignores letter case. */
  lemma ClassificationIgnoresCase(message: string)
    ensures ClassifyRegisterError(ToUpper(message)).EmailError? == ClassifyRegisterError(message).EmailError?
    ensures ClassifyRegisterError(ToUpper(message)).PasswordError? == ClassifyRegisterError(message).PasswordError?
    ensures ClassifyRegisterError(ToUpper(message)).NameError? == ClassifyRegisterError(message).NameError?
  {
    LowerOfUpper(message);
  }

  /** The server's "Email already exists" lands on the email field, with the
      page's own wording. */
  lemma EmailTakenWins()
    ensures ClassifyRegisterError("Email already exists") == EmailError(EmailTaken)
  {
    var m := "Email already exists";
    assert OccursAt(ToLower(m), "email", 0);
    assert OccursAt(ToLower(m), "exists", 14);
  }
}

=== FILE: request_coordinator.dfy ===
/** `_fetchWithAbort` and `_fetchWithAuth`: the cache-first, envelope-checking
    request wrapper and its per-URL abort registry. The network is an input: a
    request carries the response the server would give (`Reply`, the parsed
    `{status, message, data}` envelope plus the time it arrived) or the
    transport failure `fetch` would reject with. The registry of
    `AbortController`s is the set of URLs that have one; requests are modelled
    one after another, so it is observed only between calls. */
module RequestCoordinator {
  import opened Wrappers
  import opened CacheStore

  datatype Response<V> =
    | Reply(status: string, message: string, data: Option<V>, receivedAt: int)
    | TransportFailure(reason: string)

  /** The `fetchFn` thunk: a bare `fetch`, or one made through `_fetchWithAuth`. */
  datatype Request<V> = Plain(response: Response<V>) | WithAuth(response: Response<V>)

  const AuthMissing: string := "Authentication token not found"
  const NoDataFound: string := "No data found"

  /** The stored access token is usable when present and non-empty (`if (!token)`). */
  predicate HasToken(token: Option<string>) {
    token.Some? && token.value != ""
  }

  /** `_fetchWithAuth`: without a token it fails before anything is sent;
      otherwise the request goes out and its response comes back. */
  function FetchWithAuth<V>(token: Option<string>, response: Response<V>): (r: Result<Response<V>>)
    ensures r.Err? <==> !HasToken(token)
    ensures r.Err? ==> r.message == AuthMissing
    ensures r.Ok? ==> r.value == response
  {
    if !HasToken(token) then Err(AuthMissing) else Ok(response)
  }

  /** Runs the `fetchFn` thunk. */
  function Perform<V>(token: Option<string>, request: Request<V>): Result<Response<V>> {
    match request
    case Plain(response) => Ok(response)
    case WithAuth(response) => FetchWithAuth(token, response)
  }

  /** Checks the parsed envelope: `status` must be `success`, `data` must be present. */
  function Unwrap<V>(response: Response<V>): (r: Result<V>)
    ensures response.Reply? && response.status == "success" && response.data.Some? <==> r.Ok?
    ensures r.Ok? ==> r.value == response.data.value
    ensures response.Reply? && response.status != "success" ==> r == Err(response.message)
    ensures response.Reply? && response.status == "success" && response.data.None? ==> r == Err(NoDataFound)
    ensures response.TransportFailure? ==> r == Err(response.reason)
  {
    match response
    case TransportFailure(reason) => Err(reason)
    case Reply(status, message, data, _) =>
      if status != "success" then Err(message)
      else if data.None? then Err(NoDataFound)
      else Ok(data.value)
  }

  /** What one call of `_fetchWithAbort` produces: its result, the cache and
      registry it leaves, whether it aborted an earlier controller for the same
      URL, and whether it sent a request at all. */
  datatype Outcome<V> = Outcome(
    result: Result<V>,
    cache: Cache<V>,
    registry: set<string>,
    abortedPrior: bool,
    requested: bool)

  /** `_fetchWithAbort(url, fetchFn, cacheKey)` at time `now`. An empty
      `cacheKey` is JavaScript-falsy and means "no cache key". Every value the
      client caches is an object, hence truthy, so a live entry is a hit. */
  function FetchWithAbort<V>(
    c: Cache<V>, registry: set<string>, token: Option<string>,
    url: string, request: Request<V>, cacheKey: string, now: int): (r: Outcome<V>)
    // the controller bookkeeping, whatever the outcome
    ensures r.abortedPrior <==> url in registry
    ensures r.registry == registry - {url}
    // cache-first short-circuit
    ensures cacheKey != "" && Live(c, cacheKey, now) ==>
      !r.requested && r.result == Ok(c.entries[cacheKey].data) && r.cache == c
    ensures r.requested <==> cacheKey == "" || !Live(c, cacheKey, now)
    // the token guard of `_fetchWithAuth`
    ensures r.requested && request.WithAuth? && !HasToken(token) ==> r.result == Err(AuthMissing)
    // envelope errors, with the server's message
    ensures r.requested && Perform(token, request).Ok? ==>
      (r.result.Err? <==> Unwrap(Perform(token, request).value).Err?)
    ensures r.requested && Perform(token, request).Ok? && r.result.Err? ==>
      r.result == Unwrap(Perform(token, request).value)
    // success: the data is returned and stored under the key, stamped on arrival
    ensures r.requested && r.result.Ok? ==>
      request.response.Reply? && request.response.data == Some(r.result.value)
    ensures r.requested && r.result.Ok? && cacheKey != "" ==>
      cacheKey in r.cache.entries && r.cache.entries[cacheKey] == Entry(r.result.value, request.response.receivedAt)
    // the cache changes in no other way: a failed call only loses the expired cacheKey entry
    ensures r.cache.duration == c.duration
    ensures forall k :: k != cacheKey ==> (k in r.cache.entries <==> k in c.entries)
    ensures forall k :: k != cacheKey && k in c.entries ==> r.cache.entries[k] == c.entries[k]
    ensures r.result.Err? ==> r.cache.entries.Keys <= c.entries.Keys
    ensures r.result.Err? ==> forall k :: k in r.cache.entries ==> r.cache.entries[k] == c.entries[k]
    ensures cacheKey == "" ==> r.cache == c
  {
    var aborted := url in registry;
    // the new controller is registered, and deleted again in `finally`
    var after := (registry + {url}) - {url};
    var read := if cacheKey != "" then Get(c, cacheKey, now) else Lookup(None, c);
    if read.value.Some? then
      Outcome(Ok(read.value.value), read.cache, after, aborted, false)
    else
      match Perform(token, request)
      case Err(message) => Outcome(Err(message), read.cache, after, aborted, true)
      case Ok(response) =>
        match Unwrap(response)
        case Err(message) => Outcome(Err(message), read.cache, after, aborted, true)
        case Ok(data) =>
          var stored := if cacheKey != "" then Set(read.cache, cacheKey, data, response.receivedAt) else read.cache;
          Outcome(Ok(data), stored, after, aborted, true)
  }

  /** `abortAllRequests()`: every registered controller is aborted and the
      registry is emptied. */
  datatype AbortAll = AbortAll(aborted: set<string>, registry: set<string>)

  function AbortAllRequests(registry: set<string>): (r: AbortAll)
    ensures r.aborted == registry
    ensures r.registry == {}
  {
    AbortAll(registry, {})
  }

  /** Between sequential calls the registry is empty, so no call finds a
      controller to abort and none is left behind. */
  lemma SequentialCallsLeaveNoController<V>(
    c: Cache<V>, token: Option<string>, url: string, request: Request<V>, cacheKey: string, now: int)
    ensures !FetchWithAbort(c, {}, token, url, request, cacheKey, now).abortedPrior
    ensures FetchWithAbort(c, {}, token, url, request, cacheKey, now).registry == {}
  {
  }

  /** A live cached value is served even without a token: the cache is read
      before `_fetchWithAuth` runs. */
  lemma CacheHitNeedsNoToken<V>(
    c: Cache<V>, registry: set<string>, url: string, response: Response<V>, cacheKey: string, now: int)
    requires cacheKey != "" && Live(c, cacheKey, now)
    ensures FetchWithAbort(c, registry, None, url, WithAuth(response), cacheKey, now).result
      == Ok(c.entries[cacheKey].data)
  {
  }

  /** A server-side failure surfaces the server's message and leaves the cache
      as the lazy read left it. */
  lemma FailureSurfacesMessage<V>(
    c: Cache<V>, registry: set<string>, url: string, message: string, data: Option<V>, at: int, now: int)
    requires Empty<V>() == c
    ensures FetchWithAbort(c, registry, None, url, Plain(Reply("fail", message, data, at)), "threads", now).result
      == Err(message)
    ensures FetchWithAbort(c, registry, None, url, Plain(Reply("fail", message, data, at)), "threads", now).cache
      == c
  {
  }
}

=== FILE: sidebar.dfy ===
/** The signed-in sidebar: its two links, which one is active, and the
    avatar fallback's initials. */
module Sidebar {
  import opened JsText

  datatype NavItem = NavItem(path: string, title: string)

  const NavItems: seq<NavItem> := [NavItem("/", "Threads"), NavItem("/leaderboards", "Leaderboards")]

  /** `isActiveLink`: only the exact path is active. */
  predicate IsActiveLink(pathname: string, path: string) { pathname == path }

  /** At most one sidebar link is highlighted at a time. */
  lemma AtMostOneActive(pathname: string)
    ensures !(IsActiveLink(pathname, NavItems[0].path) && IsActiveLink(pathname, NavItems[1].path))
  {
  }

  /** `s.split(' ')`: the pieces between single spaces, empty pieces included.
      The last piece is empty exactly when the text is empty or ends in a space. */
  function Split(s: string): (r: seq<string>)
    ensures |r| >= 1
    ensures |r[|r| - 1]| > 0 <==> |s| > 0 && s[|s| - 1] != ' '
    decreases |s|
  {
    if |s| == 0 then [""]
    else
      var init := Split(s[..|s| - 1]);
      var c := s[|s| - 1];
      if c == ' ' then init + [""]
      else init[..|init| - 1] + [init[|init| - 1] + [c]]
  }

  /** No piece contains a space. */
  lemma {:induction false} SplitHasNoSpaces(s: string)
    ensures forall k :: 0 <= k < |Split(s)| ==> ' ' !in Split(s)[k]
    decreases |s|
  {
    if |s| > 0 {
      SplitHasNoSpaces(s[..|s| - 1]);
    }
  }

  /** Joining the pieces with single spaces gives back the text. */
  lemma {:induction false} SplitJoin(s: string)
    ensures Join(Split(s)) == s
    decreases |s|
  {
    if |s| > 0 {
      var t := s[..|s| - 1];
      var c := s[|s| - 1];
      assert s == t + [c];
      SplitJoin(t);
      SplitJoinStep(t, c);
    }
  }

  lemma SplitJoinStep(t: string, c: char)
    requires Join(Split(t)) == t
    ensures Join(Split(t + [c])) == t + [c]
  {
    var s := t + [c];
    assert s[..|s| - 1] == t;
    var init := Split(t);
    if c == ' ' {
      assert Split(s) == init + [""];
      JoinSnoc(init, "");
    } else {
      SplitJoinWord(t, c);
    }
  }

  lemma SplitJoinWord(t: string, c: char)
    requires c != ' '
    requires Join(Split(t)) == t
    ensures Join(Split(t + [c])) == t + [c]
  {
    var s := t + [c];
    assert s[..|s| - 1] == t;
    var init := Split(t);
    var front := init[..|init| - 1];
    var prev := init[|init| - 1];
    assert init == front + [prev];
    assert Split(s) == front + [prev + [c]];
    JoinExtendLast(front, prev, c);
  }

  /** Extending the last piece extends the joined text. */
  lemma JoinExtendLast(front: seq<string>, prev: string, c: char)
    ensures Join(front + [prev + [c]]) == Join(front + [prev]) + [c]
  {
    if |front| == 0 {
      assert front + [prev + [c]] == [prev + [c]];
      assert front + [prev] == [prev];
    } else {
      JoinSnoc(front, prev);
      JoinSnoc(front, prev + [c]);
      assert Join(front) + " " + (prev + [c]) == (Join(front) + " " + prev) + [c];
    }
  }

  /** `pieces.join(' ')`. */
  function Join(pieces: seq<string>): string
    decreases |pieces|
  {
    if |pieces| == 0 then ""
    else if |pieces| == 1 then pieces[0]
    else Join(pieces[..|pieces| - 1]) + " " + pieces[|pieces| - 1]
  }

  lemma JoinSnoc(pieces: seq<string>, p: string)
    requires |pieces| >= 1
    ensures Join(pieces + [p]) == Join(pieces) + " " + p
  {
    assert (pieces + [p])[..|pieces|] == pieces;
  }

  /** `pieces.map((n) => n[0]).join('')`: the first letter of every piece; an
      empty piece gives `undefined`, which `join` writes as nothing. */
  function Heads(pieces: seq<string>): string
    decreases |pieces|
  {
    if |pieces| == 0 then ""
    else
      var last := pieces[|pieces| - 1];
      Heads(pieces[..|pieces| - 1]) + (if |last| > 0 then [last[0]] else [])
  }

  /** Independent description: the non-space characters that start the text
      or follow a space. */
  function WordStarts(s: string): string
    decreases |s|
  {
    if |s| == 0 then ""
    else
      var n := |s|;
      WordStarts(s[..n - 1]) + (if s[n - 1] != ' ' && (n == 1 || s[n - 2] == ' ') then [s[n - 1]] else [])
  }

  /** Adding a piece adds its first character, if it has one. */
  lemma HeadsSnoc(pieces: seq<string>, p: string)
    ensures Heads(pieces + [p]) == Heads(pieces) + (if |p| > 0 then [p[0]] else [])
  {
    assert (pieces + [p])[..|pieces|] == pieces;
  }

  /** A trailing space adds an empty piece and no word start. */
  lemma HeadsOfSplitSpace(s: string)
    requires |s| > 0 && s[|s| - 1] == ' '
    requires Heads(Split(s[..|s| - 1])) == WordStarts(s[..|s| - 1])
    ensures Heads(Split(s)) == WordStarts(s)
  {
    HeadsSnoc(Split(s[..|s| - 1]), "");
  }

  /** Any other character extends the last piece of the text before it. */
  lemma SplitWordStep(s: string)
    requires |s| > 0 && s[|s| - 1] != ' '
    ensures var init := Split(s[..|s| - 1]);
      Split(s) == init[..|init| - 1] + [init[|init| - 1] + [s[|s| - 1]]]
  {
  }

  /** The word starts of a text, from those of the text before its last character. */
  lemma WordStartsLast(s: string)
    requires |s| > 0
    ensures WordStarts(s) == WordStarts(s[..|s| - 1]) +
      (if s[|s| - 1] != ' ' && (|s| == 1 || s[|s| - 2] == ' ') then [s[|s| - 1]] else [])
  {
  }

  lemma LastPiece(t: string)
    ensures |Split(t)| >= 1
    ensures |Split(t)[|Split(t)| - 1]| > 0 <==> |t| > 0 && t[|t| - 1] != ' '
  {
  }

  /** Extending a non-empty last piece starts no word. */
  lemma HeadsOfSplitExtend(s: string)
    requires |s| > 1 && s[|s| - 1] != ' ' && s[|s| - 2] != ' '
    requires Heads(Split(s[..|s| - 1])) == WordStarts(s[..|s| - 1])
    ensures Heads(Split(s)) == WordStarts(s)
  {
    var init := Split(s[..|s| - 1]);
    var front := init[..|init| - 1];
    var prev := init[|init| - 1];
    LastPiece(s[..|s| - 1]);
    assert |prev| > 0;
    SplitWordStep(s);
    assert init == front + [prev];
    HeadsSnoc(front, prev);
    HeadsSnoc(front, prev + [s[|s| - 1]]);
    WordStartsLast(s);
  }

  /** Extending an empty last piece starts a word with that character. */
  lemma HeadsOfSplitStart(s: string)
    requires |s| > 0 && s[|s| - 1] != ' ' && (|s| == 1 || s[|s| - 2] == ' ')
    requires Heads(Split(s[..|s| - 1])) == WordStarts(s[..|s| - 1])
    ensures Heads(Split(s)) == WordStarts(s)
  {
    var t := s[..|s| - 1];
    var c := s[|s| - 1];
    var init := Split(t);
    var front := init[..|init| - 1];
    var prev := init[|init| - 1];
    LastPiece(t);
    assert prev == [];
    assert init == front + [prev];
    HeadsSnoc(front, prev);
    assert Heads(init) == Heads(front);
    SplitWordStep(s);
    assert prev + [c] == [c];
    assert Split(s) == front + [[c]];
    HeadsSnoc(front, [c]);
    assert Heads(Split(s)) == WordStarts(t) + [c];
    WordStartsLast(s);
  }

  lemma {:induction false} HeadsOfSplit(s: string)
    ensures Heads(Split(s)) == WordStarts(s)
    decreases |s|
  {
    if |s| > 0 {
      HeadsOfSplit(s[..|s| - 1]);
      if s[|s| - 1] == ' ' {
        HeadsOfSplitSpace(s);
      } else if |s| == 1 || s[|s| - 2] == ' ' {
        HeadsOfSplitStart(s);
      } else {
        HeadsOfSplitExtend(s);
      }
    }
  }

  /** The avatar fallback: the first letters of the name's words, upper-cased,
      at most two. */
  function Initials(name: string): (r: string)
    ensures |r| == if |WordStarts(name)| < 2 then |WordStarts(name)| else 2
    ensures r == ToUpper(WordStarts(name))[..|r|]
  {
    HeadsOfSplit(name);
    Slice(ToUpper(Heads(Split(name))), 0, 2)
  }

  /** The word starts of a prefix begin the word starts of the whole. */
  lemma {:induction false} WordStartsPrefix(s: string, k: nat)
    requires k <= |s|
    ensures |WordStarts(s[..k])| <= |WordStarts(s)|
    ensures WordStarts(s)[..|WordStarts(s[..k])|] == WordStarts(s[..k])
    decreases |s| - k
  {
    if k < |s| {
      assert s[..k + 1][..k] == s[..k];
      WordStartsPrefix(s, k + 1);
    } else {
      assert s[..k] == s;
    }
  }

  /** One more character extends the word starts of a prefix by at most that character. */
  lemma WordStartsStep(s: string, k: nat)
    requires 0 < k <= |s|
    ensures WordStarts(s[..k]) ==
      WordStarts(s[..k - 1]) + (if s[k - 1] != ' ' && (k == 1 || s[k - 2] == ' ') then [s[k - 1]] else [])
  {
    assert s[..k][..k - 1] == s[..k - 1];
  }

  /** A word without spaces starts exactly once. */
  lemma {:induction false} WordStartsOfWord(w: string)
    requires w != "" && ' ' !in w
    ensures WordStarts(w) == [w[0]]
    decreases |w|
  {
    if |w| > 1 {
      var v := w[..|w| - 1];
      assert forall k :: 0 <= k < |v| ==> v[k] == w[k];
      WordStartsOfWord(v);
      assert w[|w| - 2] in w;
    }
  }

  /** Trailing spaces start no word. */
  lemma {:induction false} WordStartsThroughSpaces(p: string, gap: string)
    requires forall k :: 0 <= k < |gap| ==> gap[k] == ' '
    ensures WordStarts(p + gap) == WordStarts(p)
    decreases |gap|
  {
    if |gap| == 0 {
      assert p + gap == p;
    } else {
      var g := gap[..|gap| - 1];
      WordStartsThroughSpaces(p, g);
      var s := p + gap;
      assert s[..|s|] == s && s[..|s| - 1] == p + g && s[|s| - 1] == ' ';
      WordStartsStep(s, |s|);
    }
  }

  /** A first word, any run of spaces and more text: the first two word
      starts are the first word's letter and the text's first letter. */
  lemma FirstTwoWordStarts(first: string, gap: string, rest: string)
    requires first != "" && ' ' !in first
    requires gap != "" && forall k :: 0 <= k < |gap| ==> gap[k] == ' '
    requires rest != "" && rest[0] != ' '
    ensures |WordStarts(first + gap + rest)| >= 2
    ensures WordStarts(first + gap + rest)[..2] == [first[0], rest[0]]
  {
    var u := first + gap;
    var s := u + rest;
    WordStartsOfWord(first);
    WordStartsThroughSpaces(first, gap);
    assert s[..|u|] == u;
    assert s[|u| - 1] == ' ' && s[|u|] == rest[0];
    WordStartsStep(s, |u| + 1);
    WordStartsPrefix(s, |u| + 1);
  }

  /** The initials are the upper-cased first letters of the first two words,
      however many spaces separate them. */
  lemma InitialsOfTwoWords(first: string, gap: string, rest: string)
    requires first != "" && ' ' !in first
    requires gap != "" && forall k :: 0 <= k < |gap| ==> gap[k] == ' '
    requires rest != "" && rest[0] != ' '
    ensures Initials(first + gap + rest) == [UpperChar(first[0]), UpperChar(rest[0])]
  {
    FirstTwoWordStarts(first, gap, rest);
    var w := WordStarts(first + gap + rest);
    assert w[0] == first[0] && w[1] == rest[0];
  }
}

=== FILE: store_reducers.dfy ===
/** The four small slices of the store (`authUser`, `isPreload`, `leaderboards`,
    `users`): each action either writes a new value or is ignored. */
module StoreReducers {
  import opened Wrappers
  import opened Entities

  /** The state after dispatching `actions` in order, starting from `state`. */
  function Replay<S, A>(reduce: (S, A) -> S, state: S, actions: seq<A>): S
    decreases |actions|
  {
    if |actions| == 0 then state
    else reduce(Replay(reduce, state, actions[..|actions| - 1]), actions[|actions| - 1])
  }

  /** The value of the last action that writes one, or `state` when none does. */
  function LastWrite<S, A>(writes: A -> Option<S>, state: S, actions: seq<A>): (r: S)
    ensures (forall i :: 0 <= i < |actions| ==> writes(actions[i]).None?) ==> r == state
    ensures |actions| > 0 && writes(actions[|actions| - 1]).Some? ==> r == writes(actions[|actions| - 1]).value
    decreases |actions|
  {
    if |actions| == 0 then state
    else if writes(actions[|actions| - 1]).Some? then writes(actions[|actions| - 1]).value
    else LastWrite(writes, state, actions[..|actions| - 1])
  }

  /** A reducer that only writes or ignores ends, after any run of actions, in
      the value of the last write: the previous state never leaks through. */
  lemma {:induction false} ReplayIsLastWrite<S, A>(reduce: (S, A) -> S, writes: A -> Option<S>, state: S, actions: seq<A>)
    requires forall s: S, a: A :: reduce(s, a) == (if writes(a).Some? then writes(a).value else s)
    ensures Replay(reduce, state, actions) == LastWrite(writes, state, actions)
    decreases |actions|
  {
    if |actions| > 0 {
      ReplayIsLastWrite(reduce, writes, state, actions[..|actions| - 1]);
    }
  }

  // ---- authUser ----

  datatype AuthAction = SetAuthUser(authUser: User) | UnsetAuthUser | OtherAuthAction(actionType: string)

  const InitialAuthUser: Option<User> := None

  function AuthWrites(a: AuthAction): Option<Option<User>> {
    match a
    case SetAuthUser(u) => Some(Some(u))
    case UnsetAuthUser => Some(None)
    case OtherAuthAction(_) => None
  }

  function ReduceAuthUser(authUser: Option<User>, action: AuthAction): (r: Option<User>)
    ensures action.SetAuthUser? ==> r == Some(action.authUser)
    ensures action.UnsetAuthUser? ==> r.None?
    ensures action.OtherAuthAction? ==> r == authUser
  {
    match action
    case SetAuthUser(u) => Some(u)
    case UnsetAuthUser => None
    case OtherAuthAction(_) => authUser
  }

  /** The signed-in user is whoever the last set or unset named. */
  lemma AuthUserIsLastWrite(actions: seq<AuthAction>)
    ensures Replay(ReduceAuthUser, InitialAuthUser, actions) == LastWrite(AuthWrites, InitialAuthUser, actions)
  {
    ReplayIsLastWrite(ReduceAuthUser, AuthWrites, InitialAuthUser, actions);
  }

  // ---- isPreload ----

  datatype PreloadAction = SetIsPreload(isPreload: bool) | OtherPreloadAction(actionType: string)

  const InitialIsPreload: bool := true

  function PreloadWrites(a: PreloadAction): Option<bool> {
    if a.SetIsPreload? then Some(a.isPreload) else None
  }

  function ReduceIsPreload(isPreload: bool, action: PreloadAction): (r: bool)
    ensures action.SetIsPreload? ==> r == action.isPreload
    ensures action.OtherPreloadAction? ==> r == isPreload
  {
    match action
    case SetIsPreload(b) => b
    case OtherPreloadAction(_) => isPreload
  }

  /** The app keeps preloading until some action sets the flag. */
  lemma PreloadUntilSet(actions: seq<PreloadAction>)
    ensures (forall i :: 0 <= i < |actions| ==> actions[i].OtherPreloadAction?) ==>
      Replay(ReduceIsPreload, InitialIsPreload, actions)
    ensures Replay(ReduceIsPreload, InitialIsPreload, actions) == LastWrite(PreloadWrites, InitialIsPreload, actions)
  {
    ReplayIsLastWrite(ReduceIsPreload, PreloadWrites, InitialIsPreload, actions);
  }

  // ---- leaderboards ----

  datatype LeaderboardsAction = ReceiveLeaderboards(leaderboards: seq<LeaderboardItem>) | OtherLeaderboardsAction(actionType: string)

  const InitialLeaderboards: seq<LeaderboardItem> := []

  function LeaderboardsWrites(a: LeaderboardsAction): Option<seq<LeaderboardItem>> {
    if a.ReceiveLeaderboards? then Some(a.leaderboards) else None
  }

  function ReduceLeaderboards(leaderboards: seq<LeaderboardItem>, action: LeaderboardsAction): (r: seq<LeaderboardItem>)
    ensures action.ReceiveLeaderboards? ==> r == action.leaderboards
    ensures action.OtherLeaderboardsAction? ==> r == leaderboards
  {
    match action
    case ReceiveLeaderboards(ls) => ls
    case OtherLeaderboardsAction(_) => leaderboards
  }

  lemma LeaderboardsIsLastWrite(actions: seq<LeaderboardsAction>)
    ensures Replay(ReduceLeaderboards, InitialLeaderboards, actions) == LastWrite(LeaderboardsWrites, InitialLeaderboards, actions)
  {
    ReplayIsLastWrite(ReduceLeaderboards, LeaderboardsWrites, InitialLeaderboards, actions);
  }

  // ---- users ----

  datatype UsersAction = ReceiveUsers(users: seq<User>) | OtherUsersAction(actionType: string)

  const InitialUsers: seq<User> := []

  function UsersWrites(a: UsersAction): Option<seq<User>> {
    if a.ReceiveUsers? then Some(a.users) else None
  }

  function ReduceUsers(users: seq<User>, action: UsersAction): (r: seq<User>)
    ensures action.ReceiveUsers? ==> r == action.users
    ensures action.OtherUsersAction? ==> r == users
  {
    match action
    case ReceiveUsers(us) => us
    case OtherUsersAction(_) => users
  }

  lemma UsersIsLastWrite(actions: seq<UsersAction>)
    ensures Replay(ReduceUsers, InitialUsers, actions) == LastWrite(UsersWrites, InitialUsers, actions)
  {
    ReplayIsLastWrite(ReduceUsers, UsersWrites, InitialUsers, actions);
  }
}

=== FILE: stored_settings.dfy ===
/** The theme and locale providers: a two-valued setting whose start value
    comes from the provider's prop, then from storage, then a default, and
    whose toggle writes the new value back to storage. */
module StoredSettings {

  /** The browser's key-value storage. */
  type Storage = map<string, string>

  /** One setting: its storage key, its default and the value it toggles to. */
  datatype Setting = Setting(key: string, default: string, other: string)

  const Theme := Setting("theme", "light", "dark")
  const Locale := Setting("locale", "id", "en")

  /** The provider's current value and the storage it writes to. */
  datatype Provider = Provider(current: string, storage: Storage)

  /** `value || storage.getItem(key) || default`: the first non-empty of the
      three; a missing item counts as empty. */
  function Initial(s: Setting, value: string, storage: Storage): (r: string)
    requires s.default != ""
    ensures r != ""
    ensures value != "" ==> r == value
    ensures value == "" && s.key in storage && storage[s.key] != "" ==> r == storage[s.key]
    ensures value == "" && (s.key !in storage || storage[s.key] == "") ==> r == s.default
  {
    if value != "" then value
    else if s.key in storage && storage[s.key] != "" then storage[s.key]
    else s.default
  }

  /** The toggle: the default becomes the other value, and anything else
      (including an unexpected stored value) becomes the default. The new
      value is stored. */
  function Toggle(s: Setting, p: Provider): (r: Provider)
    ensures r.current == (if p.current == s.default then s.other else s.default)
    ensures r.storage == p.storage[s.key := r.current]
  {
    var next := if p.current == s.default then s.other else s.default;
    Provider(next, p.storage[s.key := next])
  }

  /** A toggled setting survives a reload without a prop. */
  lemma ToggleSurvivesReload(s: Setting, p: Provider)
    requires s.default != "" && s.other != ""
    ensures Initial(s, "", Toggle(s, p).storage) == Toggle(s, p).current
  {
  }

  /** Toggling twice restores either of the two expected values. */
  lemma ToggleTwice(s: Setting, p: Provider)
    requires p.current == s.default || p.current == s.other
    requires s.default != s.other
    ensures Toggle(s, Toggle(s, p)).current == p.current
    ensures Toggle(s, Toggle(s, p)).storage == p.storage[s.key := p.current]
  {
  }

  /** A first visit with nothing stored is light and Indonesian. */
  lemma FirstVisit()
    ensures Initial(Theme, "", map[]) == "light"
    ensures Initial(Locale, "", map[]) == "id"
  {
  }

  /** The toggles of the two settings write different keys, so switching one
      never changes the other after a reload. */
  lemma SettingsIndependent(p: Provider)
    ensures Initial(Locale, "", Toggle(Theme, p).storage) == Initial(Locale, "", p.storage)
  {
  }
}

=== FILE: thread_detail_reducer.dfy ===
/** `threadDetailReducer`: the thread shown on the detail page, or none. Votes
    toggle at thread level and on the comments whose id matches. */
module ThreadDetailReducer {
  import opened Wrappers
  import opened VoteSets
  import opened Entities

  datatype Action =
    | ReceiveThreadDetail(threadDetail: Option<DetailThread>)
    | UpVoteThreadDetail(userId: string)
    | DownVoteThreadDetail(userId: string)
    | NeutralizeVoteThreadDetail(userId: string)
    | CreateComment(comment: Comment)
    | UpVoteComment(commentId: string, userId: string)
    | DownVoteComment(commentId: string, userId: string)
    | NeutralizeVoteComment(commentId: string, userId: string)
    | UnknownAction(actionType: string)

  predicate IsThreadVote(action: Action) {
    action.UpVoteThreadDetail? || action.DownVoteThreadDetail? || action.NeutralizeVoteThreadDetail?
  }

  predicate IsCommentVote(action: Action) {
    action.UpVoteComment? || action.DownVoteComment? || action.NeutralizeVoteComment?
  }

  function VoteOf(action: Action): Vote
    requires IsThreadVote(action) || IsCommentVote(action)
  {
    if action.UpVoteThreadDetail? || action.UpVoteComment? then Up
    else if action.DownVoteThreadDetail? || action.DownVoteComment? then Down
    else Neutral
  }

  /** The state before any action. */
  const Initial: Option<DetailThread> := None

  /** `comments.map(...)`: every comment with the id gets the vote. */
  function VoteOnComments(comments: seq<Comment>, commentId: string, vote: Vote, user: string): (r: seq<Comment>)
    ensures |r| == |comments|
    ensures forall i :: 0 <= i < |comments| && comments[i].id != commentId ==> r[i] == comments[i]
    ensures forall i :: 0 <= i < |comments| && comments[i].id == commentId ==>
      r[i] == comments[i].(votes := ToggleVote(comments[i].votes, vote, user))
  {
    seq(|comments|, i requires 0 <= i < |comments| =>
      if comments[i].id == commentId then comments[i].(votes := ToggleVote(comments[i].votes, vote, user))
      else comments[i])
  }

  function Reduce(detail: Option<DetailThread>, action: Action): (r: Option<DetailThread>)
    ensures action.ReceiveThreadDetail? ==> r == action.threadDetail
    ensures action.UnknownAction? ==> r == detail
    // with nothing loaded, every edit leaves nothing loaded
    ensures !action.ReceiveThreadDetail? && detail.None? ==> r.None?
    ensures IsThreadVote(action) && detail.Some? ==>
      r == Some(detail.value.(votes := ToggleVote(detail.value.votes, VoteOf(action), action.userId)))
    ensures action.CreateComment? && detail.Some? ==>
      && r.Some? && r.value == detail.value.(comments := r.value.comments)
      && |r.value.comments| == |detail.value.comments| + 1
      && r.value.comments[0] == action.comment && r.value.comments[1..] == detail.value.comments
    // comment votes touch only the comments, and only those with the id
    ensures IsCommentVote(action) && detail.Some? ==>
      && r.Some? && r.value == detail.value.(comments := r.value.comments)
      && |r.value.comments| == |detail.value.comments|
      && (forall i :: 0 <= i < |detail.value.comments| && detail.value.comments[i].id != action.commentId ==>
            r.value.comments[i] == detail.value.comments[i])
      && (forall i :: 0 <= i < |detail.value.comments| && detail.value.comments[i].id == action.commentId ==>
            r.value.comments[i].votes == ToggleVote(detail.value.comments[i].votes, VoteOf(action), action.userId))
  {
    if action.ReceiveThreadDetail? then action.threadDetail
    else if action.UnknownAction? || detail.None? then detail
    else if IsThreadVote(action) then
      Some(detail.value.(votes := ToggleVote(detail.value.votes, VoteOf(action), action.userId)))
    else if action.CreateComment? then
      Some(detail.value.(comments := [action.comment] + detail.value.comments))
    else
      Some(detail.value.(comments := VoteOnComments(detail.value.comments, action.commentId, VoteOf(action), action.userId)))
  }

  predicate DetailWellFormed(d: DetailThread) {
    && WellFormed(d.votes)
    && forall i :: 0 <= i < |d.comments| ==> WellFormed(d.comments[i].votes)
  }

  /** Every vote action keeps all vote lists of the detail duplicate-free and
      mutually exclusive. */
  lemma VotesStayWellFormed(detail: DetailThread, action: Action)
    requires DetailWellFormed(detail)
    requires IsThreadVote(action) || IsCommentVote(action)
    ensures Reduce(Some(detail), action).Some?
    ensures DetailWellFormed(Reduce(Some(detail), action).value)
  {
    var r := Reduce(Some(detail), action).value;
    if IsThreadVote(action) {
      ToggleVoteWellFormed(detail.votes, VoteOf(action), action.userId);
    } else {
      forall i | 0 <= i < |detail.comments| ensures WellFormed(r.comments[i].votes) {
        if detail.comments[i].id == action.commentId {
          ToggleVoteWellFormed(detail.comments[i].votes, VoteOf(action), action.userId);
        }
      }
    }
  }
}

=== FILE: thread_detail_view.dfy ===
/** The thread detail view keeps its own copy of the category palette. */
module ThreadDetailView {
  import opened JsText
  import ThreadItem

  const Palette: map<string, string> := map[
    "teknologi" := "bg-blue-100 text-blue-800 dark:bg-blue-900/30 dark:text-blue-300",
    "olahraga" := "bg-green-100 text-green-800 dark:bg-green-900/30 dark:text-green-300",
    "politik" := "bg-red-100 text-red-800 dark:bg-red-900/30 dark:text-red-300",
    "ekonomi" := "bg-yellow-100 text-yellow-800 dark:bg-yellow-900/30 dark:text-yellow-300",
    "hiburan" := "bg-purple-100 text-purple-800 dark:bg-purple-900/30 dark:text-purple-300",
    "kesehatan" := "bg-pink-100 text-pink-800 dark:bg-pink-900/30 dark:text-pink-300"
  ]

  const Gray := "bg-gray-100 text-gray-800 dark:bg-gray-700 dark:text-gray-300"

  /** `getCategoryColor` of the detail view, with the same inherited-member
      lookup as the card's. */
  function CategoryColorAsWritten(category: string): (r: ThreadItem.ClassName)
    ensures ToLower(category) in Palette ==> r == ThreadItem.Css(Palette[ToLower(category)])
    ensures ToLower(category) in ThreadItem.InheritedNames ==> r.InheritedMember?
    ensures ToLower(category) !in Palette && ToLower(category) !in ThreadItem.InheritedNames ==> r == ThreadItem.Css(Gray)
  {
    var key := ToLower(category);
    if key in Palette then ThreadItem.Css(Palette[key])
    else if key in ThreadItem.InheritedNames then ThreadItem.InheritedMember(key)
    else ThreadItem.Css(Gray)
  }

  /** The detail page colours every category exactly as the card does. */
  lemma SameBadgeAsCard(category: string)
    ensures CategoryColorAsWritten(category) == ThreadItem.CategoryColorAsWritten(category)
  {
    assert Palette == ThreadItem.Palette;
  }

  /** Exactly six categories have their own badge. */
  lemma SixCategories()
    ensures |Palette.Keys| == 6
  {
    assert Palette.Keys == {"teknologi", "olahraga", "politik", "ekonomi", "hiburan", "kesehatan"};
  }
}

=== FILE: thread_input.dfy ===
/** The new-thread form. */
module ThreadInput {
  import opened Wrappers
  import opened JsText

  datatype NewThread = NewThread(title: string, body: string, category: string)

  /** The category buttons under the category field. */
  const QuickTags: seq<string> := ["teknologi", "lifestyle", "musik", "olahraga"]

  /** `handleSubmit`: all three fields must be non-blank, and they are sent trimmed. */
  function Submit(title: string, body: string, category: string): (r: Option<NewThread>)
    ensures r.Some? <==> !IsBlank(title) && !IsBlank(body) && !IsBlank(category)
    ensures r.Some? ==> r.value == NewThread(Trim(title), Trim(body), Trim(category))
  {
    if !IsBlank(title) && !IsBlank(category) && !IsBlank(body) then
      Some(NewThread(Trim(title), Trim(body), Trim(category)))
    else None
  }

  /** The submit button's `disabled` attribute. */
  predicate SubmitDisabled(isSubmitting: bool, title: string, body: string, category: string) {
    isSubmitting || IsBlank(title) || IsBlank(category) || IsBlank(body)
  }

  /** The button is enabled exactly when a submit would go out and nothing is
      already being submitted. */
  lemma EnabledIffSubmits(isSubmitting: bool, title: string, body: string, category: string)
    ensures !SubmitDisabled(isSubmitting, title, body, category) <==> !isSubmitting && Submit(title, body, category).Some?
  {
  }

  /** What is sent is already trimmed and not empty. */
  lemma SentFieldsAreTrimmed(title: string, body: string, category: string)
    requires Submit(title, body, category).Some?
    ensures var t := Submit(title, body, category).value;
      && Trim(t.title) == t.title && t.title != ""
      && Trim(t.body) == t.body && t.body != ""
      && Trim(t.category) == t.category && t.category != ""
  {
    TrimIdempotent(title);
    TrimIdempotent(body);
    TrimIdempotent(category);
  }

  /** Every quick tag is non-empty and has no white space at either end. */
  lemma QuickTagUnpadded(i: int)
    requires 0 <= i < |QuickTags|
    ensures QuickTags[i] != "" && Trim(QuickTags[i]) == QuickTags[i]
  {
    var tag := QuickTags[i];
    if i == 0 {
      assert tag[0] == 't' && tag[|tag| - 1] == 'i';
    } else if i == 1 {
      assert tag[0] == 'l' && tag[|tag| - 1] == 'e';
    } else if i == 2 {
      assert tag[0] == 'm' && tag[|tag| - 1] == 'k';
    } else {
      assert tag[0] == 'o' && tag[|tag| - 1] == 'a';
    }
    TrimOfUnpadded(tag);
  }

  /** A quick tag is sent as its own category. */
  lemma QuickTagIsSentAsIs(title: string, body: string, i: int)
    requires 0 <= i < |QuickTags| && !IsBlank(title) && !IsBlank(body)
    ensures Submit(title, body, QuickTags[i]) == Some(NewThread(Trim(title), Trim(body), QuickTags[i]))
  {
    QuickTagUnpadded(i);
  }
}

=== FILE: thread_item.dfy ===
/** A thread card on the home page: the category badge colour and the
    shortened body. */
module ThreadItem {
  import opened JsText

  /** The badge classes per lower-case category. */
  const Palette: map<string, string> := map[
    "teknologi" := "bg-blue-100 text-blue-800 dark:bg-blue-900/30 dark:text-blue-300",
    "olahraga" := "bg-green-100 text-green-800 dark:bg-green-900/30 dark:text-green-300",
    "politik" := "bg-red-100 text-red-800 dark:bg-red-900/30 dark:text-red-300",
    "ekonomi" := "bg-yellow-100 text-yellow-800 dark:bg-yellow-900/30 dark:text-yellow-300",
    "hiburan" := "bg-purple-100 text-purple-800 dark:bg-purple-900/30 dark:text-purple-300",
    "kesehatan" := "bg-pink-100 text-pink-800 dark:bg-pink-900/30 dark:text-pink-300"
  ]

  /** The badge for every other category. */
  const Gray := "bg-gray-100 text-gray-800 dark:bg-gray-700 dark:text-gray-300"

  /** The all-lower-case property names every plain JavaScript object inherits
      from `Object.prototype`: the only inherited names a lower-cased key can hit. */
  const InheritedNames: set<string> := {"constructor", "__proto__"}

  /** What `colors[key] || gray` yields: a class string, or an inherited member
      of the object (a function or the prototype, both truthy). */
  datatype ClassName = Css(classes: string) | InheritedMember(name: string)

  /** `getCategoryColor` as written: a plain-object lookup, which also finds
      inherited members. */
  function CategoryColorAsWritten(category: string): (r: ClassName)
    ensures ToLower(category) in Palette ==> r == Css(Palette[ToLower(category)])
    ensures ToLower(category) in InheritedNames ==> r == InheritedMember(ToLower(category))
    ensures ToLower(category) !in Palette && ToLower(category) !in InheritedNames ==> r == Css(Gray)
  {
    var key := ToLower(category);
    if key in Palette then Css(Palette[key])
    else if key in InheritedNames then InheritedMember(key)
    else Css(Gray)
  }

  /** `getCategoryColor` looking up own properties only: always a class string
      of the palette or the gray default. */
  function CategoryColor(category: string): (r: string)
    ensures r in Palette.Values || r == Gray
    ensures ToLower(category) in Palette <==> r in Palette.Values
  {
    var key := ToLower(category);
    if key in Palette then Palette[key] else Gray
  }

  /** Outside the inherited names the two lookups agree. */
  lemma AgreesOutsideInherited(category: string)
    requires ToLower(category) !in InheritedNames
    ensures CategoryColorAsWritten(category) == Css(CategoryColor(category))
  {
  }

  /** The category "Constructor" gets an inherited function instead of a
      class string; the own-property lookup gives the gray badge. */
  lemma ConstructorLeaks()
    ensures CategoryColorAsWritten("Constructor") == InheritedMember("constructor")
    ensures CategoryColor("Constructor") == Gray
  {
    assert ToLower("Constructor") == "constructor";
  }

  /** The badge does not depend on letter case. */
  lemma ColorIgnoresCase(category: string)
    ensures CategoryColor(ToUpper(category)) == CategoryColor(category)
  {
    LowerOfUpper(category);
  }

  /** The limit `truncateText` uses when called without one. */
  const DefaultMaxLength: int := 150

  /** `truncateText`: a text within the limit is kept; a longer one is cut to
      the limit (none of it when the limit is negative) and gets "...". */
  function TruncateText(text: string, maxLength: int): (r: string)
    ensures |text| <= maxLength ==> r == text
    ensures |text| > maxLength ==>
      var keep := if maxLength < 0 then 0 else maxLength;
      r == text[..keep] + "..."
  {
    if |text| <= maxLength then text else Substring(text, 0, maxLength) + "..."
  }

  /** The card's excerpt of a thread body (already reduced to plain text):
      `truncateText` with its default limit of 150 characters. */
  function Excerpt(plainText: string): (r: string)
    ensures |r| <= DefaultMaxLength + 3
    ensures |plainText| <= DefaultMaxLength ==> r == plainText
    ensures |plainText| > DefaultMaxLength ==>
      |r| == DefaultMaxLength + 3 && r[..DefaultMaxLength] == plainText[..DefaultMaxLength] && r[DefaultMaxLength..] == "..."
  {
    TruncateText(plainText, DefaultMaxLength)
  }

  /** A shortened text is a prefix of the original plus "...", and no longer
      than the limit plus three. */
  lemma TruncateIsPrefix(text: string, maxLength: nat)
    ensures var r := TruncateText(text, maxLength);
      |r| <= maxLength + 3 && (r == text || (r[..maxLength] == text[..maxLength] && r[maxLength..] == "..."))
  {
  }

  /** Truncating twice is truncating once. */
  lemma TruncateIdempotent(text: string, maxLength: nat)
    ensures TruncateText(TruncateText(text, maxLength), maxLength) == TruncateText(text, maxLength)
  {
    var r := TruncateText(text, maxLength);
    if |text| > maxLength {
      assert r[..maxLength] == text[..maxLength];
    }
  }
}

=== FILE: threads_reducer.dfy ===
/** `threadsReducer`: the thread list of the home page. Its vote actions TOGGLE:
    a second up-vote by the same user takes the up-vote back. */
module ThreadsReducer {
  import opened VoteSets
  import opened Entities

  datatype Action =
    | ReceiveThreads(threads: seq<Thread>)
    | CreateThread(thread: Thread)
    | UpVoteThread(threadId: string, userId: string)
    | DownVoteThread(threadId: string, userId: string)
    | NeutralizeVoteThread(threadId: string, userId: string)
    | UnknownAction(actionType: string)

  predicate IsVote(action: Action) {
    action.UpVoteThread? || action.DownVoteThread? || action.NeutralizeVoteThread?
  }

  function VoteOf(action: Action): Vote
    requires IsVote(action)
  {
    match action
    case UpVoteThread(_, _) => Up
    case DownVoteThread(_, _) => Down
    case NeutralizeVoteThread(_, _) => Neutral
  }

  /** The state before any action. */
  const Initial: seq<Thread> := []

  /** `threads.map(...)`: the threads with the given id get the vote; the rest are kept. */
  function VoteOnThreads(threads: seq<Thread>, threadId: string, vote: Vote, user: string): (r: seq<Thread>)
    ensures |r| == |threads|
    ensures forall i :: 0 <= i < |threads| && threads[i].id != threadId ==> r[i] == threads[i]
    ensures forall i :: 0 <= i < |threads| && threads[i].id == threadId ==>
      r[i] == threads[i].(votes := ToggleVote(threads[i].votes, vote, user))
  {
    seq(|threads|, i requires 0 <= i < |threads| =>
      if threads[i].id == threadId then threads[i].(votes := ToggleVote(threads[i].votes, vote, user))
      else threads[i])
  }

  function Reduce(threads: seq<Thread>, action: Action): (r: seq<Thread>)
    ensures action.ReceiveThreads? ==> r == action.threads
    ensures action.CreateThread? ==> |r| == |threads| + 1 && r[0] == action.thread && r[1..] == threads
    ensures action.UnknownAction? ==> r == threads
    // a vote keeps length and order and changes only the votes of the matching threads
    ensures IsVote(action) ==> |r| == |threads|
    ensures IsVote(action) ==> forall i :: 0 <= i < |threads| ==>
      r[i] == threads[i].(votes := r[i].votes)
    ensures IsVote(action) ==> forall i :: 0 <= i < |threads| && threads[i].id != action.threadId ==>
      r[i] == threads[i]
  {
    match action
    case ReceiveThreads(ts) => ts
    case CreateThread(t) => [t] + threads
    case UpVoteThread(id, user) => VoteOnThreads(threads, id, Up, user)
    case DownVoteThread(id, user) => VoteOnThreads(threads, id, Down, user)
    case NeutralizeVoteThread(id, user) => VoteOnThreads(threads, id, Neutral, user)
    case UnknownAction(_) => threads
  }

  /** The vote rule on the matching thread: the requested list is toggled for
      the user, the user leaves the other list, and no other user's votes move. */
  lemma VoteOnMatchingThread(threads: seq<Thread>, action: Action, i: int)
    requires IsVote(action) && 0 <= i < |threads| && threads[i].id == action.threadId
    ensures var before := threads[i].votes;
      var after := Reduce(threads, action)[i].votes;
      var u := action.userId;
      && (action.UpVoteThread? ==>
            (u in after.upVotesBy <==> u !in before.upVotesBy) && u !in after.downVotesBy)
      && (action.DownVoteThread? ==>
            (u in after.downVotesBy <==> u !in before.downVotesBy) && u !in after.upVotesBy)
      && (action.NeutralizeVoteThread? ==> u !in after.upVotesBy && u !in after.downVotesBy)
      && (forall w :: w != u ==> (w in after.upVotesBy <==> w in before.upVotesBy))
      && (forall w :: w != u ==> (w in after.downVotesBy <==> w in before.downVotesBy))
  {
  }

  predicate AllWellFormed(threads: seq<Thread>) {
    forall i :: 0 <= i < |threads| ==> WellFormed(threads[i].votes)
  }

  /** Vote actions keep every thread's lists duplicate-free and mutually exclusive. */
  lemma VotesStayWellFormed(threads: seq<Thread>, action: Action)
    requires AllWellFormed(threads) && IsVote(action)
    ensures AllWellFormed(Reduce(threads, action))
  {
    var r := Reduce(threads, action);
    forall i | 0 <= i < |threads| ensures WellFormed(r[i].votes) {
      if threads[i].id == action.threadId {
        ToggleVoteWellFormed(threads[i].votes, VoteOf(action), action.userId);
      }
    }
  }
}

=== FILE: vote_button.dfy ===
/** `VoteButton`: which callback a click fires, decided by the signed-in
    user's current vote. */
module VoteButton {
  import opened VoteSets
  import opened Entities
  import ThreadsReducer

  datatype Props = Props(id: string, upVotesBy: seq<string>, downVotesBy: seq<string>, authUser: string)

  /** The three callbacks the button receives, with the id it passes them. */
  datatype Callback = UpVote(id: string) | DownVote(id: string) | NeutralizeVote(id: string)

  predicate IsUpVoted(p: Props) { p.authUser in p.upVotesBy }

  predicate IsDownVoted(p: Props) { p.authUser in p.downVotesBy }

  function OnUpVoteClick(p: Props): (r: Callback)
    ensures r.id == p.id
    ensures r.NeutralizeVote? <==> IsUpVoted(p)
    ensures r.UpVote? <==> !IsUpVoted(p)
  {
    if IsUpVoted(p) then NeutralizeVote(p.id) else UpVote(p.id)
  }

  function OnDownVoteClick(p: Props): (r: Callback)
    ensures r.id == p.id
    ensures r.NeutralizeVote? <==> IsDownVoted(p)
    ensures r.DownVote? <==> !IsDownVoted(p)
  {
    if IsDownVoted(p) then NeutralizeVote(p.id) else DownVote(p.id)
  }

  /** The two numbers the button shows: how many users voted each way. */
  datatype Counts = Counts(up: nat, down: nat)

  function DisplayedCounts(p: Props): (r: Counts)
    ensures r.up == |p.upVotesBy| && r.down == |p.downVotesBy|
  {
    Counts(|p.upVotesBy|, |p.downVotesBy|)
  }

  /** The reducer action a thread callback dispatches for the signed-in user. */
  function ThreadAction(cb: Callback, userId: string): (r: ThreadsReducer.Action)
    ensures ThreadsReducer.IsVote(r) && r.threadId == cb.id && r.userId == userId
  {
    match cb
    case UpVote(id) => ThreadsReducer.UpVoteThread(id, userId)
    case DownVote(id) => ThreadsReducer.DownVoteThread(id, userId)
    case NeutralizeVote(id) => ThreadsReducer.NeutralizeVoteThread(id, userId)
  }

  function PropsOf(t: Thread, authUser: string): Props {
    Props(t.id, t.votes.upVotesBy, t.votes.downVotesBy, authUser)
  }

  /** Clicking the up button of a listed thread flips the user's up-vote and
      always clears their down-vote. */
  lemma UpClickFlipsUpVote(threads: seq<Thread>, i: int, user: string)
    requires 0 <= i < |threads|
    ensures var p := PropsOf(threads[i], user);
      var after := ThreadsReducer.Reduce(threads, ThreadAction(OnUpVoteClick(p), user))[i].votes;
      && (user in after.upVotesBy <==> !IsUpVoted(p))
      && user !in after.downVotesBy
  {
    var p := PropsOf(threads[i], user);
    ThreadsReducer.VoteOnMatchingThread(threads, ThreadAction(OnUpVoteClick(p), user), i);
  }

  /** The mirror for the down button. */
  lemma DownClickFlipsDownVote(threads: seq<Thread>, i: int, user: string)
    requires 0 <= i < |threads|
    ensures var p := PropsOf(threads[i], user);
      var after := ThreadsReducer.Reduce(threads, ThreadAction(OnDownVoteClick(p), user))[i].votes;
      && (user in after.downVotesBy <==> !IsDownVoted(p))
      && user !in after.upVotesBy
  {
    var p := PropsOf(threads[i], user);
    ThreadsReducer.VoteOnMatchingThread(threads, ThreadAction(OnDownVoteClick(p), user), i);
  }

  /** Two clicks on the up button from no vote restore the thread's votes exactly. */
  lemma UpClickTwiceRestores(t: Thread, user: string)
    requires user !in t.votes.upVotesBy && user !in t.votes.downVotesBy
    ensures var once := ThreadsReducer.Reduce([t], ThreadAction(OnUpVoteClick(PropsOf(t, user)), user));
      var twice := ThreadsReducer.Reduce(once, ThreadAction(OnUpVoteClick(PropsOf(once[0], user)), user));
      twice == [t]
  {
    var v := t.votes;
    var once := ThreadsReducer.Reduce([t], ThreadAction(OnUpVoteClick(PropsOf(t, user)), user));
    assert once[0] == t.(votes := Votes(v.upVotesBy + [user], v.downVotesBy));
    var twice := ThreadsReducer.Reduce(once, ThreadAction(OnUpVoteClick(PropsOf(once[0], user)), user));
    WithoutAppend(v.upVotesBy, [user], user);
    assert Without([user], user) == [];
    assert twice[0].votes == Votes(v.upVotesBy, v.downVotesBy);
  }

  /** From no vote, an up click raises the shown up count by one and leaves the
      down count alone. */
  lemma UpClickRaisesCount(t: Thread, user: string)
    requires user !in t.votes.upVotesBy && user !in t.votes.downVotesBy
    ensures var after := ThreadsReducer.Reduce([t], ThreadAction(OnUpVoteClick(PropsOf(t, user)), user))[0];
      DisplayedCounts(PropsOf(after, user)) ==
        Counts(DisplayedCounts(PropsOf(t, user)).up + 1, DisplayedCounts(PropsOf(t, user)).down)
  {
  }
}

=== FILE: vote_sets.dfy ===
/** Vote sets: the `upVotesBy` / `downVotesBy` user-id lists carried by threads
    and comments, and the two vote rules applied to them. The reducers TOGGLE
    (a second up-vote takes the vote back); the API client's optimistic cache
    edit MOVES (an up-vote always ends up-voted). */
module VoteSets {

  /** Which vote a user asked for. */
  datatype Vote = Up | Down | Neutral

  datatype Votes = Votes(upVotesBy: seq<string>, downVotesBy: seq<string>)

  predicate NoDup(ids: seq<string>) {
    forall i, j :: 0 <= i < j < |ids| ==> ids[i] != ids[j]
  }

  /** No user appears in both lists. */
  predicate Exclusive(v: Votes) {
    forall w :: w in v.upVotesBy ==> w !in v.downVotesBy
  }

  predicate WellFormed(v: Votes) {
    NoDup(v.upVotesBy) && NoDup(v.downVotesBy) && Exclusive(v)
  }

  /** `ids.filter((id) => id !== user)`. */
  function Without(ids: seq<string>, user: string): (r: seq<string>)
    ensures forall x :: x in r <==> x in ids && x != user
    ensures |r| <= |ids|
    ensures user !in ids ==> r == ids
  {
    if |ids| == 0 then []
    else (if ids[0] == user then [] else [ids[0]]) + Without(ids[1..], user)
  }

  /** The reducers' rule: drop the user when present, else append them. */
  function Toggle(ids: seq<string>, user: string): (r: seq<string>)
    ensures user in r <==> user !in ids
    ensures forall x :: x != user ==> (x in r <==> x in ids)
    ensures user in ids ==> r == Without(ids, user)
    ensures user !in ids ==> |r| == |ids| + 1 && r[..|ids|] == ids
  {
    if user in ids then Without(ids, user) else ids + [user]
  }

  /** The API client's rule: append the user unless already present. */
  function Include(ids: seq<string>, user: string): (r: seq<string>)
    ensures user in r
    ensures forall x :: x != user ==> (x in r <==> x in ids)
    ensures user in ids ==> r == ids
    ensures user !in ids ==> |r| == |ids| + 1 && r[..|ids|] == ids
  {
    if user in ids then ids else ids + [user]
  }

  /** A reducer vote: the requested list is toggled, the other one loses the user. */
  function ToggleVote(v: Votes, vote: Vote, user: string): (r: Votes)
    ensures vote == Up ==> (user in r.upVotesBy <==> user !in v.upVotesBy) && user !in r.downVotesBy
    ensures vote == Down ==> (user in r.downVotesBy <==> user !in v.downVotesBy) && user !in r.upVotesBy
    ensures vote == Neutral ==> user !in r.upVotesBy && user !in r.downVotesBy
    ensures forall w :: w != user ==> (w in r.upVotesBy <==> w in v.upVotesBy)
    ensures forall w :: w != user ==> (w in r.downVotesBy <==> w in v.downVotesBy)
  {
    match vote
    case Up => Votes(Toggle(v.upVotesBy, user), Without(v.downVotesBy, user))
    case Down => Votes(Without(v.upVotesBy, user), Toggle(v.downVotesBy, user))
    case Neutral => Votes(Without(v.upVotesBy, user), Without(v.downVotesBy, user))
  }

  /** An optimistic vote: the user ends in the requested list and in no other. */
  function CastVote(v: Votes, vote: Vote, user: string): (r: Votes)
    ensures vote == Up ==> user in r.upVotesBy && user !in r.downVotesBy
    ensures vote == Down ==> user in r.downVotesBy && user !in r.upVotesBy
    ensures vote == Neutral ==> user !in r.upVotesBy && user !in r.downVotesBy
    ensures forall w :: w != user ==> (w in r.upVotesBy <==> w in v.upVotesBy)
    ensures forall w :: w != user ==> (w in r.downVotesBy <==> w in v.downVotesBy)
  {
    match vote
    case Up => Votes(Include(v.upVotesBy, user), Without(v.downVotesBy, user))
    case Down => Votes(Without(v.upVotesBy, user), Include(v.downVotesBy, user))
    case Neutral => Votes(Without(v.upVotesBy, user), Without(v.downVotesBy, user))
  }

  lemma NoDupCons(x: string, t: seq<string>)
    ensures NoDup([x] + t) <==> x !in t && NoDup(t)
  {
    var s := [x] + t;
    if x !in t && NoDup(t) {
      forall i, j | 0 <= i < j < |s| ensures s[i] != s[j] {
        if i == 0 { assert s[j] == t[j - 1]; } else { assert s[i] == t[i - 1] && s[j] == t[j - 1]; }
      }
    }
    if NoDup(s) {
      forall k | 0 <= k < |t| ensures t[k] != x {
        assert s[0] == x && s[k + 1] == t[k];
      }
      forall i, j | 0 <= i < j < |t| ensures t[i] != t[j] {
        assert s[i + 1] == t[i] && s[j + 1] == t[j];
      }
    }
  }

  lemma NoDupSnoc(t: seq<string>, x: string)
    requires NoDup(t) && x !in t
    ensures NoDup(t + [x])
  {
  }

  /** Filtering keeps a duplicate-free list duplicate-free. */
  lemma {:induction false} WithoutNoDup(ids: seq<string>, user: string)
    requires NoDup(ids)
    ensures NoDup(Without(ids, user))
  {
    if |ids| > 0 {
      NoDupCons(ids[0], ids[1..]);
      assert ids == [ids[0]] + ids[1..];
      WithoutNoDup(ids[1..], user);
      if ids[0] != user {
        NoDupCons(ids[0], Without(ids[1..], user));
      }
    }
  }

  /** Filtering distributes over concatenation. */
  lemma {:induction false} WithoutAppend(a: seq<string>, b: seq<string>, user: string)
    ensures Without(a + b, user) == Without(a, user) + Without(b, user)
  {
    if |a| == 0 {
      assert a + b == b;
    } else {
      assert (a + b)[0] == a[0] && (a + b)[1..] == a[1..] + b;
      WithoutAppend(a[1..], b, user);
      assert Without(a + b, user) == (if a[0] == user then [] else [a[0]]) + Without(a[1..] + b, user);
    }
  }

  lemma ToggleNoDup(ids: seq<string>, user: string)
    requires NoDup(ids)
    ensures NoDup(Toggle(ids, user))
  {
    WithoutNoDup(ids, user);
  }

  lemma IncludeNoDup(ids: seq<string>, user: string)
    requires NoDup(ids)
    ensures NoDup(Include(ids, user))
  {
  }

  /** Every reducer vote keeps the lists duplicate-free and mutually exclusive. */
  lemma ToggleVoteWellFormed(v: Votes, vote: Vote, user: string)
    requires WellFormed(v)
    ensures WellFormed(ToggleVote(v, vote, user))
  {
    WithoutNoDup(v.upVotesBy, user);
    WithoutNoDup(v.downVotesBy, user);
    ToggleNoDup(v.upVotesBy, user);
    ToggleNoDup(v.downVotesBy, user);
  }

  /** Every optimistic vote keeps the lists duplicate-free and mutually exclusive. */
  lemma CastVoteWellFormed(v: Votes, vote: Vote, user: string)
    requires WellFormed(v)
    ensures WellFormed(CastVote(v, vote, user))
  {
    WithoutNoDup(v.upVotesBy, user);
    WithoutNoDup(v.downVotesBy, user);
  }

  /** Up-voting twice from "not up-voted" gives the up-vote back: the up list is
      restored and the user stays out of the down list. */
  lemma ToggleUpTwice(v: Votes, user: string)
    requires user !in v.upVotesBy
    ensures ToggleVote(ToggleVote(v, Up, user), Up, user) == Votes(v.upVotesBy, Without(v.downVotesBy, user))
  {
    WithoutAppend(v.upVotesBy, [user], user);
  }

  /** Down-voting twice from "not down-voted" gives the down-vote back. */
  lemma ToggleDownTwice(v: Votes, user: string)
    requires user !in v.downVotesBy
    ensures ToggleVote(ToggleVote(v, Down, user), Down, user) == Votes(Without(v.upVotesBy, user), v.downVotesBy)
  {
    WithoutAppend(v.downVotesBy, [user], user);
  }

  /** Casting the same optimistic vote twice is casting it once. */
  lemma CastVoteIdempotent(v: Votes, vote: Vote, user: string)
    ensures CastVote(CastVote(v, vote, user), vote, user) == CastVote(v, vote, user)
  {
  }
}

=== FILE: wrappers.dfy ===
/** Option and Result values shared by every module of the model. A JavaScript
    `Error` carries only a message, so `Result` fails with a message string. */
module Wrappers {

  datatype Option<+T> = None | Some(value: T) {
    /** The value, or `default` when there is none (JavaScript's `??`). */
    function GetOr(default: T): T {
      match this
      case Some(v) => v
      case None => default
    }
  }

  datatype Result<+T> = Ok(value: T) | Err(message: string) {
    predicate IsFailure() {
      Err?
    }
  }
}
